=== FILE: README.md ===
# Hotel booking dialog: a Dafny model of `BookingWorkflow`

`BookingWorkflow` (src/agent.py) runs a hotel-booking conversation as a small
state graph. Each user turn enters at `detect_intent`, which asks a classifier
for one of four intents and routes on it:

- "make a reservation" goes to `collect_information`, then to `validate_information`;
- "check reservation" goes to `summarize_booking`;
- "change reservation" goes to `change_information`, then to `summarize_booking`;
- "other" goes to `generate_response`.

After validation the turn ends in `generate_response` when every rule holds,
and in `ask_for_correction` otherwise. The booking state carries:

- six optional slots: name, check-in, check-out, guests, payment method, breakfast;
- `not_filled_keys`, a list of slot names still wanted;
- the last validation verdict (`valid_info`) and its messages (`error`);
- the intent and the last response.

The model is functional. The state is an immutable datatype whose absent keys
are `None`. Each node is a pure function that returns the new state, or the
exception the Python code would raise. The language-model chains are
uninterpreted function parameters (`Nodes.Chains`), and the clock is a
parameter (`Dates.Instant`).

Files:

- `wrappers.dfy`: `Option` and `Result`.
- `dates.dfy`: `is_valid_date_format`, `datetime.strptime("%Y-%m-%d")` with its real, lenient grammar, date order, and "in the past" against a clock that carries the time of day.
- `booking.dfy`: intents, slots, `NECESSARY_INFORMATION`, the state record, and `list.remove`.
- `slot_merge.dfy`: the per-slot merge loops of `collect_information` (fill gaps only) and `change_information` (overwrite).
- `validator.dfy`: the eight validation rules, the order they run in, the abort in the date-order check, and what a pass appends to `not_filled_keys`.
- `nodes.dfy`: the seven nodes.
- `workflow.dfy`: the graph of `_setup_graph`, the two routers, a turn as a path through the graph, and `run_graph`.
- `scenarios.dfy`: concrete dates and conversations.

## Model

| member | source | states |
|---|---|---|
| Booking.NecessaryInformationListsEverySlotOnce | src/agent.py:26-33 | the default list names each of the six slots exactly once |
| Booking.LabelIsInjective | src/agent.py:79-86 | the four intent labels are distinct strings, so each label routes to one constructor |
| Booking.NameIsInjective | src/agent.py:26-33 | the six slot names are distinct strings, so each name in `not_filled_keys` stands for one slot |
| Booking.RemoveFirst | src/agent.py:145-150 | `if name in keys: keys.remove(name)` deletes the first occurrence of the name and keeps every other element in order; a list without the name is left unchanged; so the multiset loses one copy and the length drops by one exactly when the name was listed |
| Booking.NoSlotsIsEmpty | src/pydantic_classes.py:11-27 | an extraction with every field `None` is the only one that holds no value |
| Dates.Strptime | src/agent.py:230 | a string `strptime` accepts always denotes a real calendar date |
| Dates.DayFieldCharacterised | src/agent.py:230 | `%d` reads the rest of the string as a day exactly when the rest is two digits, or below 10 a bare digit or a space and a digit |
| Dates.ParsedIsSpelling | src/agent.py:230 | whatever `strptime` reads is a four-digit year, a month and a day spelled in one of the forms `%m` and `%d` allow |
| Dates.SpellingIsParsed | src/agent.py:230 | every such spelling of a real date is read back as that date |
| Dates.StrptimeCharacterised | src/agent.py:230 | `strptime` reads a string as a date exactly when the date is real and the string is one of its spellings: four-digit year, month as two digits or one, day as two digits, one, or a space and one |
| Dates.FormatIsAccepted | src/agent.py:225-233 | every real date written `YYYY-MM-DD` passes the regex and `strptime`, and parses back to itself |
| Dates.AcceptedIsCanonical | src/agent.py:225-233 | every string the format check accepts is the canonical spelling of its date, so single-digit fields and a trailing newline are refused |
| Dates.DateFormatCharacterised | src/agent.py:225-233 | a string is accepted exactly when it spells some real calendar date |
| Dates.PrecedesIsStrictTotalOrder | src/agent.py:266-269 | date comparison is irreflexive and transitive, and any two dates are equal or ordered one way |
| Dates.TodayIsPastUnlessMidnight | src/agent.py:247-249 | against `datetime.today()`, today's date is in the past at every moment except exactly midnight, and a later date never is |
| SlotMerge.MergeAllOneSlot | src/agent.py:145-180 | a run of per-slot merges over distinct slots acts on each slot independently: a slot that is written takes the extracted value and loses one occurrence of its name, and any other slot and name count stay |
| SlotMerge.FillGapsEffect | src/agent.py:145-180 | a slot is written exactly when the extracted value is present and its name is listed, and then one occurrence leaves; the list never grows; with nothing to write, nothing changes |
| SlotMerge.OverwriteEffect | src/agent.py:204-208 | every present extracted value overwrites its slot and removes one occurrence of its name if listed; absent values leave slot and list alone; the list never grows |
| Validator.Validate | src/agent.py:235-290 | the pass raises exactly when a present date pair cannot be parsed by the date-order check |
| Validator.ValidateReportsRules | src/agent.py:235-290 | a pass that does not raise reports a rule exactly when that rule fails, in the order the checks run, each at most once |
| Validator.MessageIdentifiesRule | src/agent.py:238-290 | distinct rules produce distinct error messages |
| Validator.ChecksMeetRules | src/agent.py:238-290 | once the date-order check has not raised, the six checks together report a rule exactly when it fails |
| Validator.OrderCheckMeetsRule | src/agent.py:266-274 | when it does not raise, the date-order check reports only the order rule, and reports it exactly when check-in does not come strictly before check-out |
| Validator.ChecksInOrder | src/agent.py:235-290 | the reports come out in the fixed order name, check-in, check-out, date order, guests, payment |
| Validator.FlaggedCountsRules | src/agent.py:240-290 | for distinct failed rules, the appended names hold each slot once per rule that blames it |
| Validator.FlaggedCount | src/agent.py:240-290 | the names a pass appends contain each slot once per failed rule that blames it |
| Validator.FlaggedMembership | src/agent.py:240-290 | a slot name is appended exactly when some failed rule blames it |
| Validator.AllRulesListed | src/agent.py:235-290 | the list of rules is complete |
| Nodes.DetectIntent | src/agent.py:119-133 | raises without a user message; otherwise it sets the intent to the classifier's answer to the last response and the message, and changes nothing else |
| Nodes.CollectInformation | src/agent.py:135-185 | raises without a message; never raises once a message and a list are present; only the slots and the list can change, and a present list stays present |
| Nodes.CollectIdle | src/agent.py:145-180 | a collection that fills no slot returns the state exactly as it was, the key list included |
| Nodes.CollectRaises | src/agent.py:140-147 | with a message, collection raises exactly when the list is absent and the extractor returned some value |
| Nodes.CollectFills | src/agent.py:145-180 | a collection that does not raise fills exactly the listed slots the extractor returned, removes one occurrence of each such name, changes no other key, and leaves the state untouched when it fills nothing |
| Nodes.Collects | src/agent.py:135-185 | with a message, raises exactly when the list is absent and something was extracted; otherwise it fills exactly the listed slots the extractor returned, the list loses one occurrence per filled name, no other key changes, and when nothing is filled the state, list order included, is unchanged |
| Nodes.CollectIsIdempotent | src/agent.py:135-185 | a second collection that gets the same extraction back changes nothing when the list has no duplicates |
| Nodes.FillGapsIsIdempotent | src/agent.py:145-180 | filling gaps twice from the same extraction is filling them once, for a list without duplicates |
| Nodes.ChangeInformation | src/agent.py:187-219 | raises without a message or list and only then; only the slots, the list and the intent can change, and the list and the intent end up present |
| Nodes.Changes | src/agent.py:187-219 | overwrites every extracted slot and removes one occurrence of its name, leaves slots and list exactly as they were when nothing was extracted, and sets the intent to "check reservation" exactly when every listed name was supplied once, else "make a reservation" |
| Nodes.OverwriteEmptiesList | src/agent.py:204-214 | the list is empty after the changes exactly when they supplied every listed name and none was listed twice |
| Nodes.ValidateInformation | src/agent.py:221-299 | raises exactly when the date-order check cannot parse; otherwise it touches only the verdict, the errors and the list, records a verdict and errors, and keeps a present list present |
| Nodes.Validates | src/agent.py:235-299 | after a pass the verdict is true exactly when no rule fails, the errors are one distinct message per failed rule, and the old list is a prefix of the new one, which gains each slot once per failed rule blaming it |
| Nodes.ValidationRepeatsItself | src/agent.py:235-294 | a second pass over unchanged slots with the same clock gives the same errors and verdict and appends the same names again |
| Nodes.GenerateResponse | src/agent.py:301-320 | raises without an intent; otherwise it stores the generated answer and changes nothing else |
| Nodes.SummarizeBooking | src/agent.py:322-341 | raises without an intent; otherwise it stores the summary and changes nothing else |
| Nodes.AskForCorrection | src/agent.py:343-363 | never raises; it stores the correction prompt built from the slots and the error list, and changes nothing else |
| Workflow.RouteIntent | src/agent.py:77-86 | each of the four labels leads to its own node, and an absent intent counts as "other"; the route is always a declared edge |
| Workflow.RouteValidation | src/agent.py:89-99 | the route is `generate_response` exactly when the recorded verdict is `true`, and `ask_for_correction` otherwise, also when no verdict is recorded |
| Workflow.Next | src/agent.py:78-105 | a node routes to END exactly when it is one of the three response nodes; every other route follows a declared edge towards END |
| Workflow.EveryEdgeIsRouted | src/agent.py:78-102 | every declared edge is taken from some state |
| Workflow.Run | src/agent.py:64-105 | a successful walk starts at its node, follows declared edges, visits no terminal node before its last, which is terminal, and is at most four nodes long from `detect_intent` |
| Workflow.ReadyStepFailsOnlyOnDates | src/agent.py:119-363 | once a message, a list and (after `detect_intent`) an intent are present, a node raises only on an unparsable date |
| Workflow.StepKeepsReady | src/agent.py:119-299 | a node that succeeds on such a state leaves the message, the list and the intent present for the next node |
| Workflow.Prepare | src/agent.py:376-377 | an absent list is replaced by the six slot names; a present list is kept |
| Workflow.ReadyRunFailsOnlyOnDates | src/agent.py:119-363 | once a message, a list and (when starting after `detect_intent`) an intent are present, a walk can only raise on an unparsable date |
| Workflow.TurnFailures | src/agent.py:365-380 | a turn raises only for want of a user message or on an unparsable date |
| Workflow.RunGraph | src/agent.py:365-380 | a turn raises only for want of a user message or on an unparsable date, and a completed turn is a path of two to four nodes that starts at `detect_intent` and ends at exactly one response node |
| Workflow.Detected | src/agent.py:119-133 | after `detect_intent` the state holds a message, a list and the classified intent |
| Workflow.OtherIntentBypassesCollection | src/agent.py:78-87 | an "other" message goes straight to `generate_response` and touches no slot or name |
| Workflow.CheckIntentOnlySummarizes | src/agent.py:78-87 | a "check reservation" message goes straight to `summarize_booking` with the slots as they stand |
| Workflow.ChangeIntentThenSummarizes | src/agent.py:84-102 | a "change reservation" message walks through `change_information` to `summarize_booking`; the next intent is "make a reservation" exactly when the changes left names missing |
| Workflow.ChangeTurn | src/agent.py:78-102 | a "change reservation" turn visits `detect_intent`, `change_information` and `summarize_booking` and ends with the summary of the changed state |
| Workflow.WalkFromChange | src/agent.py:101 | the walk from `change_information` visits `summarize_booking` next and ends there |
| Workflow.ValidationRaises | src/agent.py:266-269 | when the pass raises, the walk from `validate_information` raises the same error |
| Workflow.ValidationPasses | src/agent.py:89-99 | a `true` verdict leads to `generate_response`, where the walk ends |
| Workflow.ValidationRejects | src/agent.py:89-99 | any other verdict leads to `ask_for_correction`, where the walk ends |
| Workflow.WalkFromValidation | src/agent.py:89-99 | the walk from `validate_information` raises exactly when validation does, and otherwise takes the edge its verdict picks and ends |
| Workflow.WalkFromCollection | src/agent.py:87-99 | the walk from `collect_information` always goes on to validation and ends after the verdict's node |
| Workflow.VerdictRoutes | src/agent.py:89-99 | after a pass the route is `generate_response` exactly when no rule fails and `ask_for_correction` exactly when one does |
| Workflow.ReservationIsValidatedBeforeResponse | src/agent.py:82-100 | a "make a reservation" turn raises exactly when the collected dates do not parse, and ends at `generate_response` exactly when no rule fails and at `ask_for_correction` exactly when one does |
| Scenarios.MonthThirteenRefused | src/agent.py:225-233 | "2024-13-01" has the right shape but is refused |
| Scenarios.LeapDayOnlyInLeapYears | src/agent.py:225-233 | 29 February is accepted in 2024 and refused in 2023 |
| Scenarios.TrailingNewlineRefused | src/agent.py:225-233 | a date followed by a newline passes the regular expression but is refused |
| Scenarios.UnpaddedDateParses | src/agent.py:225-233 | "2099-1-5" fails the format check although `strptime` parses it |
| Scenarios.JanuaryDates | src/agent.py:225-233 | "2099-01-05" and "2099-01-10" are accepted and parse to their dates |
| Scenarios.SwappedDatesBlameBoth | src/agent.py:266-274 | check-out before check-in, both in the future, fails only the order rule, which lists both dates |
| Scenarios.UnpaddedDatesAreMalformedButOrdered | src/agent.py:243-274 | unpadded dates fail both format rules but pass the order rule |
| Scenarios.ImpossibleMonthAborts | src/agent.py:266-269 | with a check-out date present, a check-in with month 13 makes validation raise |
| Scenarios.GoodBookingPasses | src/agent.py:235-294 | a complete, well-formed future booking with "Credit Card" breaks no rule |
| Scenarios.OnlyShortNameBlamesName | src/agent.py:238-290 | a name shorter than three characters is blamed by the name rule and by no other |
| Scenarios.ShortNameRelisted | src/agent.py:237-240 | a pass over a name shorter than three characters appends `full_name` once more and leaves the slots alone |
| Scenarios.RepeatedRejectionOutlivesCorrection | src/agent.py:145-150 | a name rejected twice is listed twice, and a later good name leaves it listed once |
| Scenarios.GuestChangeRoutes | src/agent.py:204-214 | changing only the guest count leads to "check reservation" with an empty list and to "make a reservation" with the name still listed |

## Left out

- The language-model chains (`intent_chain`, `booking_info_chain`, `booking_change_chain` and the three response chains) are function parameters. What they return is not modelled beyond its type, and their failures are not modelled. They are taken as deterministic: the same input always gets the same answer, which a language model does not promise.
- The SQLite checkpointer, the uuid thread ids, the debug printing and the `print` in `ask_for_correction` have no effect on the state and are omitted.
- `datetime.today()` is the parameter `now`: a calendar date plus microseconds since midnight.
- Validator.Validate: reads the clock once, while the code calls `datetime.today()` separately for check-in and for check-out. If both dates are "2026-10-11" and the clock passes midnight between the two reads (00:00:00.000000, then 00:00:00.000001), Python accepts check-in and rejects check-out as past; the model judges both against the same instant.
- A key present with a `null` value is not modelled for any key: absent and `None` are the same here. The web API passes such keys through, because it drops only unset fields. In Python a `null` slot makes the rules raise, for example on `len(None)`. Two nodes differ as well:
  - Workflow.Prepare: replaces a `null` key list with the six slot names. `run_graph` keeps it, because it only checks that the key is present, and `collect_information` and `change_information` then raise a `TypeError` on `in None`.
  - Nodes.DetectIntent: raises `MissingUserMessage` on a `null` message. Python passes `None` on to the classifier.
- Dates.IsValidDateFormat: `\d` matches only ASCII digits here. Python's `\d` in both the regular expression and `strptime`'s `%Y`, and `int()` after it, also accept other Unicode decimal digits. So "٢٠٩٩-01-05" (Arabic-Indic digits) is a valid check-in date in Python. The model calls it malformed, and makes validation raise when check-out is also present.
- `.lower()` on the payment method lower-cases ASCII letters only. No non-ASCII character lowers into one of the four accepted names, so membership is the same.
- Names in `not_filled_keys` are the six slot names. Python would accept any string there.
- `error` is a list of strings in the model, because the code stores a list, although the state's type declaration says `Optional[str]`.
- Behaviours of the code kept as written:
  - A present date that `strptime` rejects makes the date-order check raise, so validation aborts instead of reporting an error.
  - "In the past" is measured against the current time of day, so today's date counts as past except at exactly midnight.
  - `collect_information` overwrites a filled slot whose name validation listed again.
- Nodes.Collects and Nodes.Changes: when a slot is written, the contracts fix how many times each name stays listed, but not the order of the list. The functions themselves remove the first occurrence and keep the rest in order (`Booking.RemoveFirst`); that is not restated per node.
- Workflow.RunGraph: states which failures a turn can end in, not which partial state Python leaves behind when it raises, because the model returns no state on failure.

=== FILE: booking.dfy ===
/** The per-conversation booking record (`BookingState`), the six booking
    slots, the four intent labels, and the list operations the nodes apply to
    `not_filled_keys`.
 */
module Booking {
  import opened Wrappers

  /** The four labels the intent classifier may return. */
  datatype Intent = MakeReservation | CheckReservation | ChangeReservation | Other {

    /** The label as the classifier and the router spell it. */
    function Label(): string {
      match this
      case MakeReservation => "make a reservation"
      case CheckReservation => "check reservation"
      case ChangeReservation => "change reservation"
      case Other => "other"
    }
  }

  /** The labels are pairwise distinct, so the router's string keys and the
      constructors correspond one to one. */
  lemma LabelIsInjective(a: Intent, b: Intent)
    requires a.Label() == b.Label()
    ensures a == b
  {
  }

  /** The six booking slots; their names are the entries of `not_filled_keys`
      and the keys of the state. */
  datatype Slot = FullName | CheckInDate | CheckOutDate | NumGuests | PaymentMethod | BreakfastIncluded {

    function Name(): string {
      match this
      case FullName => "full_name"
      case CheckInDate => "check_in_date"
      case CheckOutDate => "check_out_date"
      case NumGuests => "num_guests"
      case PaymentMethod => "payment_method"
      case BreakfastIncluded => "breakfast_included"
    }
  }

  /** The names are pairwise distinct, so a name in `not_filled_keys` stands
      for exactly one slot and the list can be kept as a list of slots. */
  lemma NameIsInjective(s: Slot, t: Slot)
    requires s.Name() == t.Name()
    ensures s == t
  {
  }

  /** `NECESSARY_INFORMATION`: every slot, in the order the extractor's record
      declares them. */
  const NecessaryInformation: seq<Slot> :=
    [FullName, CheckInDate, CheckOutDate, NumGuests, PaymentMethod, BreakfastIncluded]

  /** No element occurs twice. */
  predicate NoDuplicates<T(==)>(xs: seq<T>) {
    forall i, j :: 0 <= i < j < |xs| ==> xs[i] != xs[j]
  }

  /** The tail of a list without duplicates has none and lacks the head. */
  lemma {:induction false} TailHasNoDuplicates<T>(xs: seq<T>)
    requires |xs| > 0 && NoDuplicates(xs)
    ensures NoDuplicates(xs[1..]) && xs[0] !in xs[1..]
  {
    forall i, j | 0 <= i < j < |xs[1..]|
      ensures xs[1..][i] != xs[1..][j]
    {
      assert xs[1..][i] == xs[i + 1] && xs[1..][j] == xs[j + 1];
    }
  }

  /** In a list without duplicates every element occurs at most once. */
  lemma {:induction false} OccursAtMostOnce<T>(xs: seq<T>, x: T)
    requires NoDuplicates(xs)
    ensures multiset(xs)[x] <= 1
    decreases |xs|
  {
    if xs != [] {
      TailHasNoDuplicates(xs);
      OccursAtMostOnce(xs[1..], x);
      assert xs == [xs[0]] + xs[1..];
      if xs[0] == x {
        assert x !in multiset(xs[1..]);
      }
    }
  }

  lemma NecessaryInformationListsEverySlotOnce()
    ensures NoDuplicates(NecessaryInformation)
    ensures forall s: Slot :: s in NecessaryInformation
  {
    forall s: Slot
      ensures s in NecessaryInformation
    {
      var i := match s
        case FullName => 0
        case CheckInDate => 1
        case CheckOutDate => 2
        case NumGuests => 3
        case PaymentMethod => 4
        case BreakfastIncluded => 5;
      assert NecessaryInformation[i] == s;
    }
  }

  /** Six optional slot values. It is the shape of what the field extractors
      return (`BookingInfo`) and of the slot part of the session record, where
      `None` means the key is absent from the state. */
  datatype BookingInfo = BookingInfo(
    fullName: Option<string>,
    checkInDate: Option<string>,
    checkOutDate: Option<string>,
    numGuests: Option<int>,
    paymentMethod: Option<string>,
    breakfastIncluded: Option<bool>)
  {
    /** The slot holds a value. */
    predicate Has(s: Slot) {
      match s
      case FullName => fullName.Some?
      case CheckInDate => checkInDate.Some?
      case CheckOutDate => checkOutDate.Some?
      case NumGuests => numGuests.Some?
      case PaymentMethod => paymentMethod.Some?
      case BreakfastIncluded => breakfastIncluded.Some?
    }

    /** This record and `other` hold the same value (or both none) in slot `s`. */
    predicate Agrees(other: BookingInfo, s: Slot) {
      match s
      case FullName => fullName == other.fullName
      case CheckInDate => checkInDate == other.checkInDate
      case CheckOutDate => checkOutDate == other.checkOutDate
      case NumGuests => numGuests == other.numGuests
      case PaymentMethod => paymentMethod == other.paymentMethod
      case BreakfastIncluded => breakfastIncluded == other.breakfastIncluded
    }

    /** `state[key] = value`: this record with slot `s` taken from `src`. */
    function CopyFrom(src: BookingInfo, s: Slot): (r: BookingInfo)
      ensures r.Agrees(src, s)
    {
      match s
      case FullName => this.(fullName := src.fullName)
      case CheckInDate => this.(checkInDate := src.checkInDate)
      case CheckOutDate => this.(checkOutDate := src.checkOutDate)
      case NumGuests => this.(numGuests := src.numGuests)
      case PaymentMethod => this.(paymentMethod := src.paymentMethod)
      case BreakfastIncluded => this.(breakfastIncluded := src.breakfastIncluded)
    }
  }

  const NoSlots: BookingInfo := BookingInfo(None, None, None, None, None, None)

  /** A record holds no value exactly when it is `NoSlots`. */
  lemma NoSlotsIsEmpty(x: BookingInfo)
    ensures x == NoSlots <==> forall s: Slot :: !x.Has(s)
  {
    if forall s: Slot :: !x.Has(s) {
      assert !x.Has(FullName) && !x.Has(CheckInDate) && !x.Has(CheckOutDate);
      assert !x.Has(NumGuests) && !x.Has(PaymentMethod) && !x.Has(BreakfastIncluded);
    }
  }

  /** The booking state carried from turn to turn. `error` holds the messages
      of the last validation pass (the source stores them under `error`). */
  datatype BookingState = BookingState(
    userMessage: Option<string>,
    intent: Option<Intent>,
    slots: BookingInfo,
    validInfo: Option<bool>,
    error: Option<seq<string>>,
    notFilledKeys: Option<seq<Slot>>,
    response: Option<string>)

  /** Why a turn raises instead of returning a state: a key the node reads with
      `state[...]` is missing, or `strptime` rejects a date in the date-order check. */
  datatype TurnError = MissingUserMessage | MissingKeyList | MissingIntent | UnparsableDate

  // ------------------------------------------------- list.remove

  /** Index of the first occurrence of `x`. */
  function FirstIndex<T(==)>(xs: seq<T>, x: T): (i: nat)
    requires x in xs
    ensures i < |xs| && xs[i] == x && x !in xs[..i]
  {
    if xs[0] == x then 0
    else
      var j := FirstIndex(xs[1..], x);
      assert xs[..j + 1] == [xs[0]] + xs[1..][..j];
      j + 1
  }

  /** `if x in xs: xs.remove(x)`, the guarded removal the nodes perform: the
      first occurrence goes and every other element stays in order; without
      an occurrence the list is left alone (an unguarded `list.remove` would
      raise `ValueError` there). */
  function RemoveFirst<T(==)>(xs: seq<T>, x: T): (r: seq<T>)
    ensures x !in xs ==> r == xs
    ensures x in xs ==> exists i :: 0 <= i < |xs| && xs[i] == x && x !in xs[..i] && r == xs[..i] + xs[i + 1..]
    ensures multiset(r) == multiset(xs) - multiset{x}
    ensures |r| == if x in xs then |xs| - 1 else |xs|
  {
    if x in xs then
      var i := FirstIndex(xs, x);
      assert xs == xs[..i] + [x] + xs[i + 1..];
      xs[..i] + xs[i + 1..]
    else
      assert multiset(xs)[x] == 0;
      xs
  }
}

=== FILE: dates.dfy ===
/** Calendar dates as `validate_information` sees them: the two-stage
    `YYYY-MM-DD` check, Python's `datetime.strptime(s, "%Y-%m-%d")`, and the
    comparisons against each other and against `datetime.today()`.

    Only ASCII digits are modelled.
 */
module Dates {
  import opened Wrappers

  /** A date as `strptime` returns it (a `datetime` at midnight of that day). */
  datatype Date = Date(year: int, month: int, day: int)

  predicate IsLeapYear(y: int) {
    y % 4 == 0 && (y % 100 != 0 || y % 400 == 0)
  }

  function DaysInMonth(y: int, m: int): int
    requires 1 <= m <= 12
  {
    if m == 2 then (if IsLeapYear(y) then 29 else 28)
    else if m == 4 || m == 6 || m == 9 || m == 11 then 30
    else 31
  }

  /** The dates Python's `date` constructor accepts: years MINYEAR (1) to
      MAXYEAR (9999), and a day that exists in that month. */
  predicate IsCalendarDate(d: Date) {
    && 1 <= d.year <= 9999
    && 1 <= d.month <= 12
    && 1 <= d.day <= DaysInMonth(d.year, d.month)
  }

  // ---------------------------------------------------------------- digits

  predicate IsDigit(c: char) {
    '0' <= c <= '9'
  }

  function DigitValue(c: char): (v: int)
    requires IsDigit(c)
    ensures 0 <= v <= 9
  {
    c as int - '0' as int
  }

  function DigitChar(v: int): (c: char)
    requires 0 <= v <= 9
    ensures IsDigit(c) && DigitValue(c) == v
  {
    ('0' as int + v) as char
  }

  lemma DigitCharOfValue(c: char)
    requires IsDigit(c)
    ensures DigitChar(DigitValue(c)) == c
  {
  }

  // ------------------------------------------- stage one: the regular expression

  /** `\d{4}-\d{2}-\d{2}` at the start of `s`. */
  predicate HasDateShape(s: string) {
    && |s| >= 10
    && IsDigit(s[0]) && IsDigit(s[1]) && IsDigit(s[2]) && IsDigit(s[3])
    && s[4] == '-'
    && IsDigit(s[5]) && IsDigit(s[6])
    && s[7] == '-'
    && IsDigit(s[8]) && IsDigit(s[9])
  }

  /** `re.match(r"^\d{4}-\d{2}-\d{2}$", s)`. Python's `$` also matches just
      before a final newline, so one trailing "\n" gets through this stage. */
  predicate MatchesDatePattern(s: string) {
    HasDateShape(s) && (|s| == 10 || (|s| == 11 && s[10] == '\n'))
  }

  // ----------------------------------------------- stage two: strptime

  /** `%Y`: exactly four digits. */
  predicate HasYearField(s: string) {
    |s| >= 4 && IsDigit(s[0]) && IsDigit(s[1]) && IsDigit(s[2]) && IsDigit(s[3])
  }

  function YearValue(s: string): int
    requires HasYearField(s)
  {
    1000 * DigitValue(s[0]) + 100 * DigitValue(s[1]) + 10 * DigitValue(s[2]) + DigitValue(s[3])
  }

  /** `%m`, whose pattern is `1[0-2]|0[1-9]|[1-9]`, at the start of `t`: the
      month and how many characters it took. At most one alternative can be
      followed by the '-' of the format, so the first that matches is the one used. */
  function MonthField(t: string): Option<(int, nat)> {
    if |t| >= 2 && t[0] == '1' && '0' <= t[1] <= '2' then Some((10 + DigitValue(t[1]), 2))
    else if |t| >= 2 && t[0] == '0' && '1' <= t[1] <= '9' then Some((DigitValue(t[1]), 2))
    else if |t| >= 1 && '1' <= t[0] <= '9' then Some((DigitValue(t[0]), 1))
    else None
  }

  /** `%d`, whose pattern is `3[01]|[12]\d|0[1-9]|[1-9]| [1-9]`, covering all of
      `t`: anything left over is "unconverted data" and a `ValueError`. */
  function DayField(t: string): Option<int> {
    if |t| == 2 && t[0] == '3' && '0' <= t[1] <= '1' then Some(30 + DigitValue(t[1]))
    else if |t| == 2 && '1' <= t[0] <= '2' && IsDigit(t[1]) then Some(10 * DigitValue(t[0]) + DigitValue(t[1]))
    else if |t| == 2 && (t[0] == '0' || t[0] == ' ') && '1' <= t[1] <= '9' then Some(DigitValue(t[1]))
    else if |t| == 1 && '1' <= t[0] <= '9' then Some(DigitValue(t[0]))
    else None
  }

  /** `datetime.strptime(s, "%Y-%m-%d")`; `None` is the `ValueError` it raises,
      either because `s` does not fit the format or because the date does not exist. */
  function Strptime(s: string): (r: Option<Date>)
    ensures r.Some? ==> IsCalendarDate(r.value)
  {
    if !(HasYearField(s) && |s| >= 5 && s[4] == '-') then None
    else
      match MonthField(s[5..])
      case None => None
      case Some((month, width)) =>
        var rest := s[5 + width..];
        if |rest| == 0 || rest[0] != '-' then None
        else
          match DayField(rest[1..])
          case None => None
          case Some(day) =>
            var d := Date(YearValue(s), month, day);
            if IsCalendarDate(d) then Some(d) else None
  }

  /** `is_valid_date_format`: the regular expression first, then `strptime`. */
  predicate IsValidDateFormat(s: string) {
    MatchesDatePattern(s) && Strptime(s).Some?
  }

  // ------------------------------------------------- the canonical spelling

  function Pad2(v: int): string
    requires 0 <= v <= 99
  {
    [DigitChar(v / 10), DigitChar(v % 10)]
  }

  function Pad4(v: int): string
    requires 0 <= v <= 9999
  {
    [DigitChar(v / 1000), DigitChar(v / 100 % 10), DigitChar(v / 10 % 10), DigitChar(v % 10)]
  }

  /** `YYYY-MM-DD` with zero padding, the only spelling the format check accepts. */
  function Format(d: Date): string
    requires IsCalendarDate(d)
  {
    Pad4(d.year) + "-" + Pad2(d.month) + "-" + Pad2(d.day)
  }

  lemma FourDigits(y: int)
    requires 0 <= y <= 9999
    ensures y == 1000 * (y / 1000) + 100 * (y / 100 % 10) + 10 * (y / 10 % 10) + y % 10
    ensures 0 <= y / 1000 <= 9
  {
    var q1, q2, q3 := y / 10, y / 100, y / 1000;
    assert q1 / 10 == q2 by {
      assert 100 * q2 <= y < 100 * q2 + 100;
      assert 10 * q1 <= y < 10 * q1 + 10;
    }
    assert q2 / 10 == q3 by {
      assert 1000 * q3 <= y < 1000 * q3 + 1000;
      assert 100 * q2 <= y < 100 * q2 + 100;
    }
    assert y == 10 * q1 + y % 10;
    assert q1 == 10 * q2 + q1 % 10;
    assert q2 == 10 * q3 + q2 % 10;
  }

  lemma YearRoundTrip(y: int)
    requires 0 <= y <= 9999
    ensures HasYearField(Pad4(y)) && YearValue(Pad4(y)) == y
  {
    FourDigits(y);
  }

  lemma DigitsOfFour(a: int, b: int, c: int, e: int)
    requires 0 <= a <= 9 && 0 <= b <= 9 && 0 <= c <= 9 && 0 <= e <= 9
    ensures var y := 1000 * a + 100 * b + 10 * c + e;
      y / 1000 == a && y / 100 % 10 == b && y / 10 % 10 == c && y % 10 == e
  {
    var y := 1000 * a + 100 * b + 10 * c + e;
    assert y / 1000 == a by { assert 0 <= 100 * b + 10 * c + e < 1000; }
    assert y / 100 == 10 * a + b by { assert 0 <= 10 * c + e < 100; }
    assert y / 10 == 100 * a + 10 * b + c;
  }

  lemma ValueRoundTrip(s: string)
    requires HasYearField(s)
    ensures Pad4(YearValue(s)) == s[..4]
  {
    DigitsOfFour(DigitValue(s[0]), DigitValue(s[1]), DigitValue(s[2]), DigitValue(s[3]));
    DigitCharOfValue(s[0]);
    DigitCharOfValue(s[1]);
    DigitCharOfValue(s[2]);
    DigitCharOfValue(s[3]);
  }

  lemma MonthRoundTrip(m: int, t: string)
    requires 1 <= m <= 12
    ensures MonthField(Pad2(m) + t) == Some((m, 2))
  {
    var u := Pad2(m) + t;
    assert u[0] == DigitChar(m / 10) && u[1] == DigitChar(m % 10);
  }

  lemma DayRoundTrip(dd: int)
    requires 1 <= dd <= 31
    ensures DayField(Pad2(dd)) == Some(dd)
  {
  }

  /** Every real calendar date, written `YYYY-MM-DD`, passes both stages and
      parses back to itself. */
  lemma {:induction false} FormatIsAccepted(d: Date)
    requires IsCalendarDate(d)
    ensures IsValidDateFormat(Format(d))
    ensures Strptime(Format(d)) == Some(d)
  {
    var s := Format(d);
    var tail := "-" + Pad2(d.day);
    assert s == Pad4(d.year) + "-" + (Pad2(d.month) + tail);
    YearRoundTrip(d.year);
    assert s[..4] == Pad4(d.year);
    assert YearValue(s) == d.year;
    assert s[5..] == Pad2(d.month) + tail;
    MonthRoundTrip(d.month, tail);
    assert s[7..] == tail;
    assert tail[1..] == Pad2(d.day);
    DayRoundTrip(d.day);
  }

  /** Conversely, every string both stages accept is the canonical spelling of
      the date it parses to: no other spelling (single-digit fields, a padded
      space, a trailing newline) gets through. */
  lemma {:induction false} AcceptedIsCanonical(s: string)
    requires IsValidDateFormat(s)
    ensures Format(Strptime(s).value) == s
  {
    var d := Strptime(s).value;
    // s[6] is a digit, so the month took two characters and the day the rest.
    assert MonthField(s[5..]).value.1 == 2;
    assert s[7..][1..] == s[8..];
    assert |s| == 10;
    ValueRoundTrip(s);
    assert s[5..7] == Pad2(d.month) by {
      DigitCharOfValue(s[5]);
      DigitCharOfValue(s[6]);
    }
    assert s[8..] == Pad2(d.day) by {
      DigitCharOfValue(s[8]);
      DigitCharOfValue(s[9]);
    }
    assert s == s[..4] + "-" + s[5..7] + "-" + s[8..];
  }

  /** The date-format check in one sentence: a string is accepted exactly when
      it is the `YYYY-MM-DD` spelling of a real calendar date. */
  lemma DateFormatCharacterised(s: string)
    ensures IsValidDateFormat(s) <==> exists d :: IsCalendarDate(d) && Format(d) == s
  {
    if IsValidDateFormat(s) {
      AcceptedIsCanonical(s);
      assert IsCalendarDate(Strptime(s).value);
    }
    if exists d :: IsCalendarDate(d) && Format(d) == s {
      var d :| IsCalendarDate(d) && Format(d) == s;
      FormatIsAccepted(d);
    }
  }

  // ------------------------------------------------ what strptime accepts

  /** The ways `%m` can spell a month: two digits, or one digit below 10. */
  function MonthSpellings(m: int): set<string>
    requires 1 <= m <= 12
  {
    {Pad2(m)} + if m <= 9 then {[DigitChar(m)]} else {}
  }

  /** The ways `%d` can spell a day: two digits, or below 10 a bare digit or
      a digit after a space. */
  function DaySpellings(dd: int): set<string>
    requires 1 <= dd <= 31
  {
    {Pad2(dd)} + if dd <= 9 then {[DigitChar(dd)], [' ', DigitChar(dd)]} else {}
  }

  /** Every string `strptime(s, "%Y-%m-%d")` reads as `d`. */
  function Spellings(d: Date): set<string>
    requires IsCalendarDate(d)
  {
    set m, dd | m in MonthSpellings(d.month) && dd in DaySpellings(d.day) :: Pad4(d.year) + "-" + m + "-" + dd
  }

  /** Whatever `%m` reads at the start of `t` is one of that month's spellings. */
  lemma MonthFieldSpelled(t: string)
    requires MonthField(t).Some?
    ensures var (m, w) := MonthField(t).value;
      1 <= m <= 12 && w <= |t| && t[..w] in MonthSpellings(m)
  {
    var (m, w) := MonthField(t).value;
    if w == 2 {
      assert t[..2] == [t[0], t[1]];
      DigitCharOfValue(t[1]);
      assert t[..2] == Pad2(m);
    } else {
      assert t[..1] == [t[0]];
      DigitCharOfValue(t[0]);
    }
  }

  /** A month spelling followed by the format's '-' is read as that month,
      taking exactly its own characters. */
  lemma SpelledMonthField(m: int, spelling: string, t: string)
    requires 1 <= m <= 12 && spelling in MonthSpellings(m)
    requires |t| >= 1 && t[0] == '-'
    ensures MonthField(spelling + t) == Some((m, |spelling|))
  {
    var u := spelling + t;
    if spelling == Pad2(m) {
      assert u[0] == DigitChar(m / 10) && u[1] == DigitChar(m % 10);
    } else {
      assert u[0] == DigitChar(m) && u[1] == '-';
    }
  }

  /** `%d` over the rest of the string reads `dd` exactly when the rest is
      one of that day's spellings. */
  lemma DayFieldCharacterised(t: string, dd: int)
    ensures DayField(t) == Some(dd) <==> 1 <= dd <= 31 && t in DaySpellings(dd)
  {
    if DayField(t) == Some(dd) {
      if |t| == 2 {
        DigitCharOfValue(t[1]);
        if t[0] == ' ' {
          assert t == [' ', DigitChar(dd)];
        } else {
          DigitCharOfValue(t[0]);
          assert dd / 10 == DigitValue(t[0]) && dd % 10 == DigitValue(t[1]);
          assert t == Pad2(dd);
        }
      } else {
        DigitCharOfValue(t[0]);
        assert t == [DigitChar(dd)];
      }
    }
    if 1 <= dd <= 31 && t in DaySpellings(dd) {
      if t == Pad2(dd) {
        DayRoundTrip(dd);
      }
    }
  }

  /** What `strptime` reads is one of the spellings of the date it returns. */
  lemma {:induction false} ParsedIsSpelling(s: string)
    requires Strptime(s).Some?
    ensures s in Spellings(Strptime(s).value)
  {
    var d := Strptime(s).value;
    var (m, w) := MonthField(s[5..]).value;
    MonthFieldSpelled(s[5..]);
    var month := s[5..][..w];
    assert month == s[5..5 + w];
    var day := s[6 + w..];
    assert s[5 + w..][1..] == day;
    DayFieldCharacterised(day, d.day);
    ValueRoundTrip(s);
    assert s == s[..4] + "-" + month + "-" + day;
  }

  /** Every spelling of a real date is read back as that date. */
  lemma {:induction false} SpellingIsParsed(s: string, d: Date, month: string, day: string)
    requires IsCalendarDate(d)
    requires month in MonthSpellings(d.month) && day in DaySpellings(d.day)
    requires s == Pad4(d.year) + "-" + month + "-" + day
    ensures Strptime(s) == Some(d)
  {
    YearRoundTrip(d.year);
    assert s[..4] == Pad4(d.year);
    assert s[5..] == month + ("-" + day);
    SpelledMonthField(d.month, month, "-" + day);
    assert s[5 + |month|..] == "-" + day;
    DayFieldCharacterised(day, d.day);
  }

  /** `strptime`'s lenient grammar in one sentence: it reads `s` as `d`
      exactly when `d` is a real date and `s` is one of its spellings, with a
      four-digit year and the shorter month and day forms allowed. */
  lemma StrptimeCharacterised(s: string, d: Date)
    ensures Strptime(s) == Some(d) <==> IsCalendarDate(d) && s in Spellings(d)
  {
    if Strptime(s) == Some(d) {
      ParsedIsSpelling(s);
    }
    if IsCalendarDate(d) && s in Spellings(d) {
      var month, day :| month in MonthSpellings(d.month) && day in DaySpellings(d.day)
        && s == Pad4(d.year) + "-" + month + "-" + day;
      SpellingIsParsed(s, d, month, day);
    }
  }

  // ----------------------------------------------------------- ordering

  /** `<` on Python dates: field by field, most significant first. */
  predicate Precedes(a: Date, b: Date) {
    || a.year < b.year
    || (a.year == b.year && a.month < b.month)
    || (a.year == b.year && a.month == b.month && a.day < b.day)
  }

  /** `Precedes` is a strict total order, so `b <= a` is the negation of `a < b`. */
  lemma PrecedesIsStrictTotalOrder(a: Date, b: Date, c: Date)
    ensures !Precedes(a, a)
    ensures Precedes(a, b) && Precedes(b, c) ==> Precedes(a, c)
    ensures a == b || Precedes(a, b) || Precedes(b, a)
    ensures !(Precedes(a, b) && Precedes(b, a))
  {
  }

  /** What `datetime.today()` returns: a date and the microseconds since midnight. */
  datatype Instant = Instant(date: Date, micros: int)

  const MicrosPerDay: int := 86_400_000_000

  predicate IsInstant(t: Instant) {
    IsCalendarDate(t.date) && 0 <= t.micros < MicrosPerDay
  }

  /** `<` on Python datetimes. */
  predicate Earlier(a: Instant, b: Instant) {
    Precedes(a.date, b.date) || (a.date == b.date && a.micros < b.micros)
  }

  /** `datetime.strptime(s, ...) < datetime.today()`: a parsed date is its midnight. */
  predicate InPast(d: Date, now: Instant) {
    Earlier(Instant(d, 0), now)
  }

  /** Because the clock carries the time of day, today's date counts as past
      at every moment except exactly midnight; later dates never do. */
  lemma TodayIsPastUnlessMidnight(d: Date, now: Instant)
    requires IsInstant(now)
    ensures d == now.date ==> (InPast(d, now) <==> now.micros > 0)
    ensures InPast(d, now) <==> Precedes(d, now.date) || (d == now.date && now.micros != 0)
    ensures Precedes(now.date, d) ==> !InPast(d, now)
  {
  }
}

=== FILE: nodes.dfy ===
/** The seven nodes of the booking graph, each a function from the state to
    the updated state or the error the node raises. The language-model chains
    the nodes call are parameters: the model fixes what each node passes them
    and what it does with their answers, not what they answer.
 */
module Nodes {
  import opened Wrappers
  import opened Dates
  import opened Booking
  import opened SlotMerge
  import opened Validator

  /** The chains, as functions of what the nodes hand them. */
  datatype Chains = Chains(
    /** intent_chain: the previous assistant question (if any) and the user's answer. */
    classifyIntent: (Option<string>, string) -> Intent,
    /** booking_info_chain: the user message. */
    extractInfo: string -> BookingInfo,
    /** booking_change_chain: the user message and the slots as they stand. */
    extractChanges: (string, BookingInfo) -> BookingInfo,
    /** response_chain and summarization_chain: the intent and the slots. */
    respond: (Intent, BookingInfo) -> string,
    summarize: (Intent, BookingInfo) -> string,
    /** correction_chain: the slots and the error list of the last validation. */
    correct: (BookingInfo, Option<seq<string>>) -> string)

  /** Number of occurrences of a slot name. */
  function Occurrences(keys: Option<seq<Slot>>, s: Slot): nat {
    multiset(keys.GetOr([]))[s]
  }

  // ------------------------------------------------------------ detect_intent

  /** `detect_intent`: classifies the message, passing the last response as
      the question it answers; it changes nothing but the intent. */
  function DetectIntent(st: BookingState, chains: Chains): (r: Result<BookingState, TurnError>)
    ensures r.Failure? <==> st.userMessage.None?
    ensures r.Failure? ==> r.error == MissingUserMessage
    ensures r.Success? ==> r.value.intent == Some(chains.classifyIntent(st.response, st.userMessage.value))
    ensures r.Success? ==> r.value.(intent := st.intent) == st
  {
    match st.userMessage
    case None => Failure(MissingUserMessage)
    case Some(msg) => Success(st.(intent := Some(chains.classifyIntent(st.response, msg))))
  }

  // ------------------------------------------------------- collect_information

  /** What `collect_information` promises: only the slots and the key list
      change; a slot is filled from `x` exactly when `x` has a value for it and
      its name is listed, and then one occurrence of the name leaves the list.
      When no slot is filled, the state is left exactly as it was. */
  predicate Collected(before: BookingState, x: BookingInfo, after: BookingState) {
    && after.(slots := before.slots, notFilledKeys := before.notFilledKeys) == before
    && after.notFilledKeys.Some? == before.notFilledKeys.Some?
    && ((forall s: Slot :: !(x.Has(s) && s in before.notFilledKeys.GetOr([]))) ==> after == before)
    && forall s: Slot ::
      if x.Has(s) && s in before.notFilledKeys.GetOr([]) then
        after.slots.Agrees(x, s) && Occurrences(after.notFilledKeys, s) == Occurrences(before.notFilledKeys, s) - 1
      else
        after.slots.Agrees(before.slots, s) && Occurrences(after.notFilledKeys, s) == Occurrences(before.notFilledKeys, s)
  }

  /** `collect_information`. The key list is read only once the extractor has
      returned a value, so a missing list goes unnoticed when it returned none.
      Only the slots and the list can change. */
  function CollectInformation(st: BookingState, chains: Chains): (r: Result<BookingState, TurnError>)
    ensures st.userMessage.None? ==> r == Failure(MissingUserMessage)
    ensures st.userMessage.Some? && st.notFilledKeys.Some? ==> r.Success?
    ensures r.Failure? ==> r.error == MissingUserMessage || r.error == MissingKeyList
    ensures r.Success? ==> r.value.(slots := st.slots, notFilledKeys := st.notFilledKeys) == st
    ensures r.Success? ==> r.value.notFilledKeys.Some? == st.notFilledKeys.Some?
  {
    match st.userMessage
    case None => Failure(MissingUserMessage)
    case Some(msg) =>
      var x := chains.extractInfo(msg);
      if st.notFilledKeys.None? && x != NoSlots then Failure(MissingKeyList)
      else
        var merged := FillGaps(st.slots, st.notFilledKeys.GetOr([]), x);
        Success(st.(slots := merged.0, notFilledKeys := if st.notFilledKeys.None? then None else Some(merged.1)))
  }

  /** A collection that fills no slot leaves the state as it was. */
  lemma CollectIdle(st: BookingState, chains: Chains)
    requires st.userMessage.Some? && CollectInformation(st, chains).Success?
    requires var x := chains.extractInfo(st.userMessage.value);
      forall s: Slot :: !(x.Has(s) && s in st.notFilledKeys.GetOr([]))
    ensures CollectInformation(st, chains).value == st
  {
    FillGapsEffect(st.slots, st.notFilledKeys.GetOr([]), chains.extractInfo(st.userMessage.value));
  }

  /** `collect_information` raises for want of a list exactly when the
      extractor returned some value. */
  lemma CollectRaises(st: BookingState, chains: Chains)
    requires st.userMessage.Some?
    ensures var x := chains.extractInfo(st.userMessage.value);
      CollectInformation(st, chains).Failure? <==> st.notFilledKeys.None? && exists s: Slot :: x.Has(s)
  {
    NoSlotsIsEmpty(chains.extractInfo(st.userMessage.value));
  }

  /** A collection that does not raise keeps the promise of `Collected`. */
  lemma CollectFills(st: BookingState, chains: Chains)
    requires st.userMessage.Some? && CollectInformation(st, chains).Success?
    ensures Collected(st, chains.extractInfo(st.userMessage.value), CollectInformation(st, chains).value)
  {
    var x := chains.extractInfo(st.userMessage.value);
    FillGapsEffect(st.slots, st.notFilledKeys.GetOr([]), x);
    if forall s: Slot :: !(x.Has(s) && s in st.notFilledKeys.GetOr([])) {
      CollectIdle(st, chains);
    }
  }

  /** `collect_information` raises for a missing list exactly when the
      extractor returned some value; otherwise it fills exactly the listed
      slots the extractor returned. */
  lemma Collects(st: BookingState, chains: Chains)
    requires st.userMessage.Some?
    ensures var x := chains.extractInfo(st.userMessage.value);
      var r := CollectInformation(st, chains);
      && (r.Failure? <==> st.notFilledKeys.None? && exists s: Slot :: x.Has(s))
      && (r.Success? ==> Collected(st, x, r.value))
  {
    CollectRaises(st, chains);
    if CollectInformation(st, chains).Success? {
      CollectFills(st, chains);
    }
  }

  // -------------------------------------------------------- change_information

  /** What `change_information` promises about the slots and the key list:
      every slot `x` has a value for is overwritten and one occurrence of its
      name leaves the list; the other slots and names stay. When `x` has no
      value at all, the slots and the list are left exactly as they were. */
  predicate Changed(before: BookingState, x: BookingInfo, after: BookingState) {
    && after.(slots := before.slots, notFilledKeys := before.notFilledKeys, intent := before.intent) == before
    && after.notFilledKeys.Some?
    && ((forall s: Slot :: !x.Has(s)) ==> after.slots == before.slots && after.notFilledKeys == before.notFilledKeys)
    && forall s: Slot ::
      if x.Has(s) then
        && after.slots.Agrees(x, s)
        && Occurrences(after.notFilledKeys, s)
           == if s in before.notFilledKeys.GetOr([]) then Occurrences(before.notFilledKeys, s) - 1 else 0
      else
        after.slots.Agrees(before.slots, s) && Occurrences(after.notFilledKeys, s) == Occurrences(before.notFilledKeys, s)
  }

  /** Every listed name is supplied by `x`, and listed at most once. */
  predicate Completes(keys: seq<Slot>, x: BookingInfo) {
    forall s: Slot :: multiset(keys)[s] <= if x.Has(s) then 1 else 0
  }

  lemma EmptyIffNoOccurrences(keys: seq<Slot>)
    ensures |keys| == 0 <==> forall s: Slot :: multiset(keys)[s] == 0
  {
    if |keys| > 0 {
      assert multiset(keys)[keys[0]] > 0;
    }
  }

  /** The list is empty after the changes exactly when they supplied every listed name. */
  lemma OverwriteEmptiesList(slots: BookingInfo, keys: seq<Slot>, x: BookingInfo)
    ensures |Overwrite(slots, keys, x).1| == 0 <==> Completes(keys, x)
  {
    var rest := Overwrite(slots, keys, x).1;
    OverwriteEffect(slots, keys, x);
    EmptyIffNoOccurrences(rest);
    forall s: Slot
      ensures multiset(rest)[s] == 0 <==> multiset(keys)[s] <= if x.Has(s) then 1 else 0
    {
      if x.Has(s) && s in keys {
        assert s in multiset(keys);
      }
    }
  }

  /** `change_information`: applies the changes, then sends the conversation
      back to collecting when names are still missing and to checking the
      reservation when none are. Only the slots, the list and the intent change. */
  function ChangeInformation(st: BookingState, chains: Chains): (r: Result<BookingState, TurnError>)
    ensures st.userMessage.None? ==> r == Failure(MissingUserMessage)
    ensures st.userMessage.Some? ==> (r.Failure? <==> st.notFilledKeys.None?)
    ensures r.Failure? ==> r.error == MissingUserMessage || r.error == MissingKeyList
    ensures r.Success? ==> r.value.(slots := st.slots, notFilledKeys := st.notFilledKeys, intent := st.intent) == st
    ensures r.Success? ==> r.value.notFilledKeys.Some? && r.value.intent.Some?
  {
    match st.userMessage
    case None => Failure(MissingUserMessage)
    case Some(msg) =>
      match st.notFilledKeys
      case None => Failure(MissingKeyList)
      case Some(keys) =>
        var x := chains.extractChanges(msg, st.slots);
        var merged := Overwrite(st.slots, keys, x);
        var next := if |merged.1| > 0 then MakeReservation else CheckReservation;
        Success(st.(slots := merged.0, notFilledKeys := Some(merged.1), intent := Some(next)))
  }

  /** `change_information` overwrites every extracted slot and removes one
      occurrence of its name; the next intent is "check reservation" exactly
      when every listed name was supplied, once, and "make a reservation" otherwise. */
  lemma Changes(st: BookingState, chains: Chains)
    requires ChangeInformation(st, chains).Success?
    ensures var x := chains.extractChanges(st.userMessage.value, st.slots);
      var r := ChangeInformation(st, chains).value;
      && Changed(st, x, r)
      && (r.intent == Some(CheckReservation) <==> Completes(st.notFilledKeys.value, x))
      && (r.intent == Some(MakeReservation) <==> !Completes(st.notFilledKeys.value, x))
  {
    var x := chains.extractChanges(st.userMessage.value, st.slots);
    OverwriteEffect(st.slots, st.notFilledKeys.value, x);
    OverwriteEmptiesList(st.slots, st.notFilledKeys.value, x);
    if forall s: Slot :: !x.Has(s) {
      MergeAllIdle(NecessaryInformation, st.slots, st.notFilledKeys.value, x, false);
    }
  }

  // ------------------------------------------------------ validate_information

  /** `validate_information`. The pass raises exactly when the date-order
      check cannot parse a present date. Otherwise it records whether every
      rule holds, one message per failed rule, each at most once, and appends
      the blamed names to the key list (creating it if a rule failed), each
      once per failed rule that blames it; the slots are left alone. */
  function ValidateInformation(st: BookingState, now: Instant): (r: Result<BookingState, TurnError>)
    ensures r.Failure? <==> Aborts(st.slots)
    ensures r.Failure? ==> r.error == UnparsableDate
    ensures r.Success? ==> r.value.(validInfo := st.validInfo, error := st.error, notFilledKeys := st.notFilledKeys) == st
    ensures r.Success? ==> r.value.validInfo.Some? && r.value.error.Some?
    ensures r.Success? && st.notFilledKeys.Some? ==> r.value.notFilledKeys.Some?
  {
    var vs :- Validate(st.slots, now);
    var keys := st.notFilledKeys.GetOr([]);
    Success(st.(validInfo := Some(vs == []),
                error := Some(Messages(vs)),
                notFilledKeys := if vs == [] then st.notFilledKeys else Some(keys + Flagged(vs))))
  }

  /** What a pass that does not raise records: the verdict is true exactly
      when no rule fails, the messages are one per failed rule, each once, and
      the list keeps its old entries as a prefix and gains each slot once per
      failed rule that blames it. */
  lemma Validates(st: BookingState, now: Instant)
    requires ValidateInformation(st, now).Success?
    ensures var r := ValidateInformation(st, now).value;
      && r.validInfo == Some(forall v: Violation :: !Violated(v, st.slots, now))
      && (forall m :: m in r.error.value <==> exists v: Violation :: Violated(v, st.slots, now) && m == v.Message())
      && NoDuplicates(r.error.value)
      && (r.validInfo == Some(true) ==> r.notFilledKeys == st.notFilledKeys)
      && (r.validInfo == Some(false) ==>
          && r.notFilledKeys.Some?
          && |st.notFilledKeys.GetOr([])| <= |r.notFilledKeys.value|
          && r.notFilledKeys.value[..|st.notFilledKeys.GetOr([])|] == st.notFilledKeys.GetOr([])
          && forall s: Slot :: Occurrences(r.notFilledKeys, s) == Occurrences(st.notFilledKeys, s) + |Blamers(st.slots, now, s)|)
  {
    var vs := Validate(st.slots, now).value;
    var keys := st.notFilledKeys.GetOr([]);
    ValidateReportsRules(st.slots, now);
    AppendedCounts(keys, st.slots, now);
    assert (keys + Flagged(vs))[..|keys|] == keys;
    PassIffNoViolation(st.slots, now);
    MessagesDistinct(vs);
    MessagesOfRules(vs);
  }

  /** Appending a pass's names adds, for every slot, one occurrence per rule blaming it. */
  lemma AppendedCounts(keys: seq<Slot>, slots: BookingInfo, now: Instant)
    requires Validate(slots, now).Success?
    ensures forall s: Slot :: multiset(keys + Flagged(Validate(slots, now).value))[s]
                             == multiset(keys)[s] + |Blamers(slots, now, s)|
  {
    forall s: Slot
      ensures multiset(keys + Flagged(Validate(slots, now).value))[s] == multiset(keys)[s] + |Blamers(slots, now, s)|
    {
      FlaggedCount(slots, now, s);
    }
  }

  /** A pass reports no rule exactly when no rule is broken. */
  lemma PassIffNoViolation(slots: BookingInfo, now: Instant)
    requires Validate(slots, now).Success?
    ensures Validate(slots, now).value == [] <==> forall v: Violation :: !Violated(v, slots, now)
  {
    var vs := Validate(slots, now).value;
    ValidateReportsRules(slots, now);
    if vs != [] {
      assert Violated(vs[0], slots, now);
    }
  }

  /** The messages of a list of failed rules are those of its rules. */
  lemma MessagesOfRules(vs: seq<Violation>)
    ensures forall m :: m in Messages(vs) <==> exists v :: v in vs && m == v.Message()
  {
    forall m | m in Messages(vs)
      ensures exists v :: v in vs && m == v.Message()
    {
      var i :| 0 <= i < |vs| && Messages(vs)[i] == m;
      assert vs[i] in vs;
    }
    forall v | v in vs
      ensures v.Message() in Messages(vs)
    {
      var i :| 0 <= i < |vs| && vs[i] == v;
      assert Messages(vs)[i] == v.Message();
    }
  }

  /** Distinct rules, listed in rank order, give distinct messages. */
  lemma MessagesDistinct(vs: seq<Violation>)
    requires RanksIncrease(vs)
    ensures NoDuplicates(Messages(vs))
  {
    forall i, j | 0 <= i < j < |Messages(vs)|
      ensures Messages(vs)[i] != Messages(vs)[j]
    {
      if Messages(vs)[i] == Messages(vs)[j] {
        MessageIdentifiesRule(vs[i], vs[j]);
      }
    }
  }

  // ---------------------------------------------------- the three terminal nodes

  /** `generate_response`: reads the intent and changes nothing but the response. */
  function GenerateResponse(st: BookingState, chains: Chains): (r: Result<BookingState, TurnError>)
    ensures r.Failure? <==> st.intent.None?
    ensures r.Failure? ==> r.error == MissingIntent
    ensures r.Success? ==> r.value.(response := st.response) == st
    ensures r.Success? ==> r.value.response == Some(chains.respond(st.intent.value, st.slots))
  {
    match st.intent
    case None => Failure(MissingIntent)
    case Some(intent) => Success(st.(response := Some(chains.respond(intent, st.slots))))
  }

  /** `summarize_booking`: reads the intent and changes nothing but the response. */
  function SummarizeBooking(st: BookingState, chains: Chains): (r: Result<BookingState, TurnError>)
    ensures r.Failure? <==> st.intent.None?
    ensures r.Failure? ==> r.error == MissingIntent
    ensures r.Success? ==> r.value.(response := st.response) == st
    ensures r.Success? ==> r.value.response == Some(chains.summarize(st.intent.value, st.slots))
  {
    match st.intent
    case None => Failure(MissingIntent)
    case Some(intent) => Success(st.(response := Some(chains.summarize(intent, st.slots))))
  }

  /** `ask_for_correction`: reads only optional keys, so it never raises. */
  function AskForCorrection(st: BookingState, chains: Chains): (r: Result<BookingState, TurnError>)
    ensures r.Success?
    ensures r.value.(response := st.response) == st
    ensures r.value.response == Some(chains.correct(st.slots, st.error))
  {
    Success(st.(response := Some(chains.correct(st.slots, st.error))))
  }

  // ------------------------------------------------------------------ lemmas

  /** Filling gaps twice from the same extraction writes nothing the second
      time, provided the list named no slot twice. */
  lemma FillGapsIsIdempotent(slots: BookingInfo, keys: seq<Slot>, x: BookingInfo)
    requires NoDuplicates(keys)
    ensures var once := FillGaps(slots, keys, x); FillGaps(once.0, once.1, x) == once
  {
    var once := FillGaps(slots, keys, x);
    FillGapsEffect(slots, keys, x);
    FillGapsEffect(once.0, once.1, x);
    forall s: Slot
      ensures !(x.Has(s) && s in once.1)
    {
      if x.Has(s) {
        if s in keys {
          OccursAtMostOnce(keys, s);
        } else {
          assert s !in multiset(keys);
        }
        assert s !in multiset(once.1);
      }
    }
  }

  /** Collecting twice from the same message changes nothing the second time,
      provided the list named no slot twice. */
  lemma CollectIsIdempotent(st: BookingState, chains: Chains)
    requires CollectInformation(st, chains).Success?
    requires NoDuplicates(st.notFilledKeys.GetOr([]))
    ensures CollectInformation(CollectInformation(st, chains).value, chains) == CollectInformation(st, chains)
  {
    FillGapsIsIdempotent(st.slots, st.notFilledKeys.GetOr([]), chains.extractInfo(st.userMessage.value));
  }

  /** A second pass over the same slots with the same clock reports the same
      errors and verdict, and appends to the list exactly what the first pass
      appended. */
  lemma ValidationRepeatsItself(st: BookingState, now: Instant)
    requires ValidateInformation(st, now).Success?
    ensures var once := ValidateInformation(st, now).value;
      var twice := ValidateInformation(once, now);
      var before := st.notFilledKeys.GetOr([]);
      var after := once.notFilledKeys.GetOr([]);
      && twice.Success?
      && twice.value.slots == st.slots
      && twice.value.error == once.error
      && twice.value.validInfo == once.validInfo
      && |before| <= |after| <= |twice.value.notFilledKeys.GetOr([])|
      && twice.value.notFilledKeys.GetOr([]) == after + after[|before|..]
  {
    var once := ValidateInformation(st, now).value;
    var vs := Validate(st.slots, now).value;
    var before := st.notFilledKeys.GetOr([]);
    if vs == [] {
      assert once.notFilledKeys == st.notFilledKeys;
    } else {
      var after := before + Flagged(vs);
      assert once.notFilledKeys == Some(after);
      assert after[|before|..] == Flagged(vs);
    }
  }
}

=== FILE: scenarios.dfy ===
/** Concrete conversations through the model: particular dates, particular
    slot values, and what the nodes make of them.
 */
module Scenarios {
  import opened Wrappers
  import opened Dates
  import opened Booking
  import opened Validator
  import Nodes

  /** A clock reading one microsecond after midnight on 10 October 2026. */
  const Now: Instant := Instant(Date(2026, 10, 10), 1)

  /** Month 13 passes the regular expression but not `strptime`. */
  lemma MonthThirteenRefused()
    ensures MatchesDatePattern("2024-13-01") && !IsValidDateFormat("2024-13-01")
  {
    assert "2024-13-01"[5..] == "13-01" && "13-01"[1..] == "3-01" && "3-01"[1..] == "-01";
  }

  /** 29 February exists only in a leap year. */
  lemma LeapDayOnlyInLeapYears()
    ensures IsValidDateFormat("2024-02-29") && Strptime("2024-02-29") == Some(Date(2024, 2, 29))
    ensures MatchesDatePattern("2023-02-29") && !IsValidDateFormat("2023-02-29")
  {
    assert "2024-02-29"[5..] == "02-29" && "02-29"[2..] == "-29" && "-29"[1..] == "29";
    assert "2023-02-29"[5..] == "02-29";
  }

  /** A trailing newline gets past `$` but is "unconverted data" to `strptime`. */
  lemma TrailingNewlineRefused()
    ensures MatchesDatePattern("2024-01-01\n") && !IsValidDateFormat("2024-01-01\n")
  {
    assert "2024-01-01\n"[5..] == "01-01\n" && "01-01\n"[2..] == "-01\n" && "-01\n"[1..] == "01\n";
  }

  /** Single-digit fields fail the regular expression, yet `strptime` parses them. */
  lemma UnpaddedDateParses()
    ensures !IsValidDateFormat("2099-1-5") && Strptime("2099-1-5") == Some(Date(2099, 1, 5))
  {
    assert "2099-1-5"[5..] == "1-5" && "1-5"[1..] == "-5" && "-5"[1..] == "5";
  }

  /** Two well-formed dates in January 2099. */
  lemma JanuaryDates()
    ensures IsValidDateFormat("2099-01-05") && Strptime("2099-01-05") == Some(Date(2099, 1, 5))
    ensures IsValidDateFormat("2099-01-10") && Strptime("2099-01-10") == Some(Date(2099, 1, 10))
  {
    assert "2099-01-10"[5..] == "01-10" && "01-10"[2..] == "-10" && "-10"[1..] == "10";
    assert "2099-01-05"[5..] == "01-05" && "01-05"[2..] == "-05" && "-05"[1..] == "05";
  }

  /** Check-out before check-in, both in the future: only the order rule
      fails, and it blames both dates. */
  lemma SwappedDatesBlameBoth()
    ensures var slots := NoSlots.(checkInDate := Some("2099-01-10"), checkOutDate := Some("2099-01-05"));
      var r := Validate(slots, Now);
      r == Success([DatesOutOfOrder]) && Flagged(r.value) == [CheckInDate, CheckOutDate]
  {
    var slots := NoSlots.(checkInDate := Some("2099-01-10"), checkOutDate := Some("2099-01-05"));
    JanuaryDates();
    assert DateCheck(slots.checkInDate, CheckInMalformed, CheckInPast, Now) == [];
    assert DateCheck(slots.checkOutDate, CheckOutMalformed, CheckOutPast, Now) == [];
    assert OrderCheck(slots) == Success([DatesOutOfOrder]);
    assert Checks(slots, Now, [DatesOutOfOrder]) == [DatesOutOfOrder];
    assert Flagged([DatesOutOfOrder]) == [CheckInDate, CheckOutDate] + Flagged([]);
  }

  /** Dates without leading zeros fail the format rules, yet the order rule
      parses them and finds them in order. */
  lemma UnpaddedDatesAreMalformedButOrdered()
    ensures var slots := NoSlots.(checkInDate := Some("2099-1-5"), checkOutDate := Some("2099-1-9"));
      Validate(slots, Now) == Success([CheckInMalformed, CheckOutMalformed])
  {
    assert "2099-1-5"[5..] == "1-5" && "1-5"[1..] == "-5" && "-5"[1..] == "5";
    assert "2099-1-9"[5..] == "1-9" && "1-9"[1..] == "-9" && "-9"[1..] == "9";
    assert Strptime("2099-1-5") == Some(Date(2099, 1, 5));
    assert Strptime("2099-1-9") == Some(Date(2099, 1, 9));
    var slots := NoSlots.(checkInDate := Some("2099-1-5"), checkOutDate := Some("2099-1-9"));
    assert !MatchesDatePattern("2099-1-5") && !MatchesDatePattern("2099-1-9");
    assert DateCheck(slots.checkInDate, CheckInMalformed, CheckInPast, Now) == [CheckInMalformed];
    assert DateCheck(slots.checkOutDate, CheckOutMalformed, CheckOutPast, Now) == [CheckOutMalformed];
    assert OrderCheck(slots) == Success([]);
    assert Checks(slots, Now, []) == [CheckInMalformed] + [CheckOutMalformed] == [CheckInMalformed, CheckOutMalformed];
  }

  /** With a check-out date present, a check-in whose month does not exist
      makes the order rule raise, so the whole pass raises instead of
      reporting. Without a check-out date the order rule does not run, and
      the check-in is only reported as malformed. */
  lemma ImpossibleMonthAborts()
    ensures var slots := NoSlots.(checkInDate := Some("2099-13-01"), checkOutDate := Some("2099-01-05"));
      Validate(slots, Now) == Failure(UnparsableDate)
  {
    assert "2099-13-01"[5..] == "13-01" && "13-01"[1..] == "3-01" && "3-01"[1..] == "-01";
    assert Strptime("2099-13-01") == None;
  }

  /** A complete, well-formed booking breaks no rule. */
  lemma GoodBookingPasses()
    ensures var slots := BookingInfo(Some("Alice"), Some("2099-01-05"), Some("2099-01-10"),
                                     Some(2), Some("Credit Card"), Some(true));
      Validate(slots, Now) == Success([])
  {
    var slots := BookingInfo(Some("Alice"), Some("2099-01-05"), Some("2099-01-10"),
                             Some(2), Some("Credit Card"), Some(true));
    JanuaryDates();
    assert Lower("Credit Card") == "credit card" == PaymentMethods[0];
    assert NameCheck(slots) == [] && GuestCheck(slots) == [] && PaymentCheck(slots) == [];
    assert DateCheck(slots.checkInDate, CheckInMalformed, CheckInPast, Now) == [];
    assert DateCheck(slots.checkOutDate, CheckOutMalformed, CheckOutPast, Now) == [];
    assert OrderCheck(slots) == Success([]);
    assert Checks(slots, Now, []) == [];
  }

  /** Only the name rule blames the name. */
  lemma OnlyShortNameBlamesName(slots: BookingInfo, now: Instant)
    requires slots.fullName.Some? && |slots.fullName.value| < 3
    ensures Blamers(slots, now, FullName) == {ShortName}
  {
    assert AllRules[0] == ShortName;
  }

  /** A pass over a short name lists the name once more and leaves the slots alone. */
  lemma ShortNameRelisted(st: BookingState, now: Instant)
    requires st.slots.fullName.Some? && |st.slots.fullName.value| < 3
    requires Nodes.ValidateInformation(st, now).Success?
    ensures var r := Nodes.ValidateInformation(st, now).value;
      && r.slots == st.slots
      && Nodes.Occurrences(r.notFilledKeys, FullName) == Nodes.Occurrences(st.notFilledKeys, FullName) + 1
  {
    OnlyShortNameBlamesName(st.slots, now);
    Nodes.Validates(st, now);
    assert Violated(ShortName, st.slots, now);
  }

  /** A name rejected on two passes is listed twice; supplying a good name
      takes one occurrence out, so the name stays listed as missing even
      though the slot now holds the good value. */
  lemma RepeatedRejectionOutlivesCorrection(st: BookingState, chains: Nodes.Chains, now: Instant)
    requires st.userMessage.Some? && st.notFilledKeys == Some([])
    requires st.slots == NoSlots.(fullName := Some("Al"))
    requires chains.extractInfo(st.userMessage.value) == NoSlots.(fullName := Some("Alice"))
    ensures var once := Nodes.ValidateInformation(st, now);
      && once.Success?
      && var twice := Nodes.ValidateInformation(once.value, now);
      && twice.Success?
      && var fixed := Nodes.CollectInformation(twice.value, chains);
      && fixed.Success?
      && fixed.value.slots.fullName == Some("Alice")
      && Nodes.Occurrences(fixed.value.notFilledKeys, FullName) == 1
  {
    var once := Nodes.ValidateInformation(st, now).value;
    ShortNameRelisted(st, now);
    var twice := Nodes.ValidateInformation(once, now).value;
    ShortNameRelisted(once, now);
    assert FullName in multiset(twice.notFilledKeys.value);
    assert chains.extractInfo(twice.userMessage.value).Has(FullName);
    Nodes.Collects(twice, chains);
  }

  /** Changing only the guest count when nothing is missing leads to checking
      the reservation; with the name still missing it leads back to collecting. */
  lemma GuestChangeRoutes(st: BookingState, chains: Nodes.Chains)
    requires st.userMessage.Some? && st.notFilledKeys.Some?
    requires chains.extractChanges(st.userMessage.value, st.slots) == NoSlots.(numGuests := Some(4))
    ensures var r := Nodes.ChangeInformation(st, chains);
      && r.Success?
      && r.value.slots.numGuests == Some(4)
      && (st.notFilledKeys == Some([]) ==> r.value.intent == Some(CheckReservation))
      && (st.notFilledKeys == Some([FullName]) ==> r.value.intent == Some(MakeReservation))
  {
    var x := NoSlots.(numGuests := Some(4));
    var r := Nodes.ChangeInformation(st, chains).value;
    Nodes.Changes(st, chains);
    assert r.slots.Agrees(x, NumGuests);
    if st.notFilledKeys == Some([FullName]) {
      assert multiset([FullName])[FullName] == 1;
      assert !Nodes.Completes([FullName], x);
    }
  }
}

=== FILE: slot_merge.dfy ===
/** How an extracted `BookingInfo` is merged into the session's slots and
    `not_filled_keys`: `collect_information` only fills gaps,
    `change_information` overwrites. Both walk the six fields in the same
    fixed order and, for every field they write, remove one occurrence of its
    name from the list.
 */
module SlotMerge {
  import opened Booking

  /** Whether the merge writes slot `s`: the extractor returned a value and,
      when only gaps may be filled, the slot's name is listed in `keys`. */
  predicate Writes(extracted: BookingInfo, keys: seq<Slot>, s: Slot, onlyGaps: bool) {
    extracted.Has(s) && (!onlyGaps || s in keys)
  }

  /** One field: write it and drop one occurrence of its name, or leave both alone. */
  function MergeSlot(slots: BookingInfo, keys: seq<Slot>, extracted: BookingInfo, s: Slot, onlyGaps: bool)
    : (BookingInfo, seq<Slot>)
  {
    if Writes(extracted, keys, s, onlyGaps) then
      (slots.CopyFrom(extracted, s), RemoveFirst(keys, s))
    else
      (slots, keys)
  }

  lemma MembershipFollowsCount(keys: seq<Slot>, keys': seq<Slot>, s: Slot)
    requires multiset(keys')[s] == multiset(keys)[s]
    ensures s in keys' <==> s in keys
  {
    assert s in keys <==> s in multiset(keys);
    assert s in keys' <==> s in multiset(keys');
  }

  /** What merging field `t` does to slot `s`. */
  lemma MergeSlotEffect(slots: BookingInfo, keys: seq<Slot>, extracted: BookingInfo, t: Slot, onlyGaps: bool, s: Slot)
    ensures var r := MergeSlot(slots, keys, extracted, t, onlyGaps);
      && (if s == t && Writes(extracted, keys, s, onlyGaps) then r.0.Agrees(extracted, s) else r.0.Agrees(slots, s))
      && multiset(r.1)[s] == if s == t && Writes(extracted, keys, s, onlyGaps) && s in keys
                             then multiset(keys)[s] - 1
                             else multiset(keys)[s]
  {
    var r := MergeSlot(slots, keys, extracted, t, onlyGaps);
    if Writes(extracted, keys, t, onlyGaps) && s == t && s !in keys {
      assert s !in multiset(keys);
    }
  }

  /** The fields of `order`, merged one after the other. */
  function MergeAll(order: seq<Slot>, slots: BookingInfo, keys: seq<Slot>, extracted: BookingInfo, onlyGaps: bool)
    : (BookingInfo, seq<Slot>)
    decreases |order|
  {
    if order == [] then (slots, keys)
    else
      var first := MergeSlot(slots, keys, extracted, order[0], onlyGaps);
      MergeAll(order[1..], first.0, first.1, extracted, onlyGaps)
  }

  /** What `MergeAll` does to one slot. Because no slot is listed twice in
      `order`, each field is decided on the list as it was before the merge:
      writing one slot never changes whether another one is written. */
  lemma {:induction false} MergeAllOneSlot(order: seq<Slot>, slots: BookingInfo, keys: seq<Slot>, extracted: BookingInfo, onlyGaps: bool, s: Slot)
    requires NoDuplicates(order)
    ensures var r := MergeAll(order, slots, keys, extracted, onlyGaps);
      && (if s in order && Writes(extracted, keys, s, onlyGaps)
          then r.0.Agrees(extracted, s)
          else r.0.Agrees(slots, s))
      && multiset(r.1)[s] == if s in order && Writes(extracted, keys, s, onlyGaps) && s in keys
                             then multiset(keys)[s] - 1
                             else multiset(keys)[s]
    decreases |order|
  {
    if order != [] {
      var first := MergeSlot(slots, keys, extracted, order[0], onlyGaps);
      TailHasNoDuplicates(order);
      MergeSlotEffect(slots, keys, extracted, order[0], onlyGaps, s);
      MergeAllOneSlot(order[1..], first.0, first.1, extracted, onlyGaps, s);
      assert s in order <==> s == order[0] || s in order[1..];
      if s != order[0] {
        MembershipFollowsCount(keys, first.1, s);
      }
    }
  }

  /** A merge that writes no field of `order` returns its inputs untouched. */
  lemma {:induction false} MergeAllIdle(order: seq<Slot>, slots: BookingInfo, keys: seq<Slot>, extracted: BookingInfo, onlyGaps: bool)
    requires forall s :: s in order ==> !Writes(extracted, keys, s, onlyGaps)
    ensures MergeAll(order, slots, keys, extracted, onlyGaps) == (slots, keys)
    decreases |order|
  {
    if order != [] {
      assert order[0] in order;
      assert forall s :: s in order[1..] ==> s in order;
      MergeAllIdle(order[1..], slots, keys, extracted, onlyGaps);
    }
  }

  /** What `collect_information`'s merge does to one slot. */
  lemma FillGapsSlot(slots: BookingInfo, keys: seq<Slot>, extracted: BookingInfo, s: Slot)
    ensures var r := MergeAll(NecessaryInformation, slots, keys, extracted, true);
      && (if extracted.Has(s) && s in keys then r.0.Agrees(extracted, s) else r.0.Agrees(slots, s))
      && multiset(r.1)[s] == if extracted.Has(s) && s in keys then multiset(keys)[s] - 1 else multiset(keys)[s]
  {
    NecessaryInformationListsEverySlotOnce();
    MergeAllOneSlot(NecessaryInformation, slots, keys, extracted, true, s);
  }

  /** The merge of `collect_information`: only gaps are filled. */
  function FillGaps(slots: BookingInfo, keys: seq<Slot>, extracted: BookingInfo): (BookingInfo, seq<Slot>) {
    MergeAll(NecessaryInformation, slots, keys, extracted, true)
  }

  /** What `FillGaps` does: a slot is written only when the extractor returned
      a value for it and its name is listed; then exactly one occurrence of
      the name leaves the list. Every other slot and every other name count
      stay as they were, so the list never grows. */
  lemma FillGapsEffect(slots: BookingInfo, keys: seq<Slot>, extracted: BookingInfo)
    ensures var r := FillGaps(slots, keys, extracted);
      && (forall s: Slot :: extracted.Has(s) && s in keys ==>
            r.0.Agrees(extracted, s) && multiset(r.1)[s] == multiset(keys)[s] - 1)
      && (forall s: Slot :: !(extracted.Has(s) && s in keys) ==>
            r.0.Agrees(slots, s) && multiset(r.1)[s] == multiset(keys)[s])
      && multiset(r.1) <= multiset(keys)
      && ((forall s: Slot :: !(extracted.Has(s) && s in keys)) ==> r == (slots, keys))
  {
    var r := FillGaps(slots, keys, extracted);
    assert (forall s: Slot :: !(extracted.Has(s) && s in keys)) ==> r == (slots, keys) by {
      if forall s: Slot :: !(extracted.Has(s) && s in keys) {
        MergeAllIdle(NecessaryInformation, slots, keys, extracted, true);
      }
    }
    assert forall s: Slot ::
      && (if extracted.Has(s) && s in keys then r.0.Agrees(extracted, s) else r.0.Agrees(slots, s))
      && multiset(r.1)[s] == if extracted.Has(s) && s in keys then multiset(keys)[s] - 1 else multiset(keys)[s]
    by {
      forall s: Slot {
        FillGapsSlot(slots, keys, extracted, s);
      }
    }
    assert multiset(r.1) <= multiset(keys) by {
      forall s: Slot
        ensures multiset(r.1)[s] <= multiset(keys)[s]
      {
        FillGapsSlot(slots, keys, extracted, s);
      }
    }
  }

  /** What `change_information`'s merge does to one slot. */
  lemma OverwriteSlot(slots: BookingInfo, keys: seq<Slot>, extracted: BookingInfo, s: Slot)
    ensures var r := MergeAll(NecessaryInformation, slots, keys, extracted, false);
      && (if extracted.Has(s) then r.0.Agrees(extracted, s) else r.0.Agrees(slots, s))
      && multiset(r.1)[s] == if !extracted.Has(s) then multiset(keys)[s]
                             else if s in keys then multiset(keys)[s] - 1 else 0
  {
    NecessaryInformationListsEverySlotOnce();
    MergeAllOneSlot(NecessaryInformation, slots, keys, extracted, false, s);
    if s !in keys {
      assert s !in multiset(keys);
    }
  }

  /** The merge of `change_information`: every field is overwritten. */
  function Overwrite(slots: BookingInfo, keys: seq<Slot>, extracted: BookingInfo): (BookingInfo, seq<Slot>) {
    MergeAll(NecessaryInformation, slots, keys, extracted, false)
  }

  /** What `Overwrite` does: every slot the extractor returned a value for is
      overwritten, filled or not, and one occurrence of its name leaves the
      list if it was there. Slots extracted as `None` keep their value and
      their list entries. */
  lemma OverwriteEffect(slots: BookingInfo, keys: seq<Slot>, extracted: BookingInfo)
    ensures var r := Overwrite(slots, keys, extracted);
      && (forall s: Slot :: extracted.Has(s) ==>
            r.0.Agrees(extracted, s) && multiset(r.1)[s] == if s in keys then multiset(keys)[s] - 1 else 0)
      && (forall s: Slot :: !extracted.Has(s) ==>
            r.0.Agrees(slots, s) && multiset(r.1)[s] == multiset(keys)[s])
      && multiset(r.1) <= multiset(keys)
  {
    var r := Overwrite(slots, keys, extracted);
    assert forall s: Slot ::
      && (if extracted.Has(s) then r.0.Agrees(extracted, s) else r.0.Agrees(slots, s))
      && multiset(r.1)[s] == if !extracted.Has(s) then multiset(keys)[s]
                             else if s in keys then multiset(keys)[s] - 1 else 0
    by {
      forall s: Slot {
        OverwriteSlot(slots, keys, extracted, s);
      }
    }
    assert multiset(r.1) <= multiset(keys) by {
      forall s: Slot
        ensures multiset(r.1)[s] <= multiset(keys)[s]
      {
        OverwriteSlot(slots, keys, extracted, s);
      }
    }
  }
}

=== FILE: validator.dfy ===
/** The rules of `validate_information`. Each rule that fails contributes one
    error message and re-lists the names of the slots it blames; all rules run,
    in a fixed order, and none of them changes a slot.
 */
module Validator {
  import opened Wrappers
  import opened Dates
  import opened Booking

  /** One failed rule, listed in the order the rules run. */
  datatype Violation =
    | ShortName
    | CheckInMalformed
    | CheckInPast
    | CheckOutMalformed
    | CheckOutPast
    | DatesOutOfOrder
    | NonPositiveGuests
    | UnknownPaymentMethod
  {
    /** The error string the rule appends. */
    function Message(): string {
      match this
      case ShortName => "Full name must be at least 3 characters long."
      case CheckInMalformed => "Check-in date format is invalid (YYYY-MM-DD)."
      case CheckInPast => "Check-in date cannot be in the past."
      case CheckOutMalformed => "Check-out date format is invalid (YYYY-MM-DD)."
      case CheckOutPast => "Check-out date cannot be in the past."
      case DatesOutOfOrder => "Check-out date must be after check-in date."
      case NonPositiveGuests => "Number of guests must be positive."
      case UnknownPaymentMethod => "Invalid payment method. Please choose from: " + Join(", ", PaymentMethods) + "."
    }

    /** The slot names the rule appends to `not_filled_keys`. */
    function Culprits(): seq<Slot> {
      match this
      case ShortName => [FullName]
      case CheckInMalformed => [CheckInDate]
      case CheckInPast => [CheckInDate]
      case CheckOutMalformed => [CheckOutDate]
      case CheckOutPast => [CheckOutDate]
      case DatesOutOfOrder => [CheckInDate, CheckOutDate]
      case NonPositiveGuests => [NumGuests]
      case UnknownPaymentMethod => [PaymentMethod]
    }

    /** Position of the rule in the order the checks run. */
    function Rank(): nat {
      match this
      case ShortName => 0
      case CheckInMalformed => 1
      case CheckInPast => 2
      case CheckOutMalformed => 3
      case CheckOutPast => 4
      case DatesOutOfOrder => 5
      case NonPositiveGuests => 6
      case UnknownPaymentMethod => 7
    }
  }

  /** The length of each message and its last character but one: no two
      messages agree on both. A proof device for `MessageIdentifiesRule`,
      which would otherwise compare the long message texts pairwise. */
  function Tag(v: Violation): (int, char) {
    match v
    case ShortName => (45, 'g')
    case CheckInMalformed => (45, ')')
    case CheckInPast => (36, 't')
    case CheckOutMalformed => (46, ')')
    case CheckOutPast => (37, 't')
    case DatesOutOfOrder => (43, 'e')
    case NonPositiveGuests => (34, 'e')
    case UnknownPaymentMethod => (82, 'l')
  }

  lemma MessageTag(v: Violation)
    ensures |v.Message()| == Tag(v).0 && v.Message()[|v.Message()| - 2] == Tag(v).1
  {
    match v
    case ShortName =>
    case CheckInMalformed =>
    case CheckInPast =>
    case CheckOutMalformed =>
    case CheckOutPast =>
    case DatesOutOfOrder =>
    case NonPositiveGuests =>
    case UnknownPaymentMethod =>
  }

  lemma MessageIdentifiesRule(v: Violation, w: Violation)
    requires v.Message() == w.Message()
    ensures v == w
  {
    MessageTag(v);
    MessageTag(w);
  }

  const PaymentMethods: seq<string> := ["credit card", "debit card", "cash", "paypal"]

  /** `sep.join(xs)`. */
  function Join(sep: string, xs: seq<string>): string {
    if |xs| == 0 then ""
    else if |xs| == 1 then xs[0]
    else xs[0] + sep + Join(sep, xs[1..])
  }

  function LowerChar(c: char): char {
    if 'A' <= c <= 'Z' then (c as int - 'A' as int + 'a' as int) as char else c
  }

  /** `str.lower()` on the letters that matter here. */
  function Lower(s: string): string {
    seq(|s|, i requires 0 <= i < |s| => LowerChar(s[i]))
  }

  // --------------------------------------------------- the rules, one by one

  /** When each rule fails, stated on the slots and the clock alone. Absent
      slots break no rule, and `breakfast_included` is never checked. */
  predicate Violated(v: Violation, slots: BookingInfo, now: Instant) {
    match v
    case ShortName =>
      slots.fullName.Some? && |slots.fullName.value| < 3
    case CheckInMalformed =>
      slots.checkInDate.Some? && !IsValidDateFormat(slots.checkInDate.value)
    case CheckInPast =>
      && slots.checkInDate.Some? && IsValidDateFormat(slots.checkInDate.value)
      && InPast(Strptime(slots.checkInDate.value).value, now)
    case CheckOutMalformed =>
      slots.checkOutDate.Some? && !IsValidDateFormat(slots.checkOutDate.value)
    case CheckOutPast =>
      && slots.checkOutDate.Some? && IsValidDateFormat(slots.checkOutDate.value)
      && InPast(Strptime(slots.checkOutDate.value).value, now)
    case DatesOutOfOrder =>
      && slots.checkInDate.Some? && slots.checkOutDate.Some?
      && Strptime(slots.checkInDate.value).Some? && Strptime(slots.checkOutDate.value).Some?
      && !Precedes(Strptime(slots.checkInDate.value).value, Strptime(slots.checkOutDate.value).value)
    case NonPositiveGuests =>
      slots.numGuests.Some? && slots.numGuests.value <= 0
    case UnknownPaymentMethod =>
      slots.paymentMethod.Some? && Lower(slots.paymentMethod.value) !in PaymentMethods
  }

  /** The date-order check parses both dates without looking at the format
      checks' verdicts, so a present date `strptime` rejects makes it raise. */
  predicate Aborts(slots: BookingInfo) {
    && slots.checkInDate.Some? && slots.checkOutDate.Some?
    && (Strptime(slots.checkInDate.value).None? || Strptime(slots.checkOutDate.value).None?)
  }

  // ------------------------------------------------ the checks, as written

  function NameCheck(slots: BookingInfo): seq<Violation> {
    if slots.fullName.Some? && |slots.fullName.value| < 3 then [ShortName] else []
  }

  /** Format first; only a well-formed date is compared with the clock. */
  function DateCheck(date: Option<string>, malformed: Violation, past: Violation, now: Instant): seq<Violation> {
    match date
    case None => []
    case Some(s) =>
      if !IsValidDateFormat(s) then [malformed]
      else if InPast(Strptime(s).value, now) then [past]
      else []
  }

  /** `strptime(check_out) <= strptime(check_in)`, raising on either date. */
  function OrderCheck(slots: BookingInfo): Result<seq<Violation>, TurnError> {
    if slots.checkInDate.None? || slots.checkOutDate.None? then Success([])
    else
      match (Strptime(slots.checkOutDate.value), Strptime(slots.checkInDate.value))
      case (Some(checkOut), Some(checkIn)) =>
        Success(if checkOut == checkIn || Precedes(checkOut, checkIn) then [DatesOutOfOrder] else [])
      case _ => Failure(UnparsableDate)
  }

  function GuestCheck(slots: BookingInfo): seq<Violation> {
    if slots.numGuests.Some? && slots.numGuests.value <= 0 then [NonPositiveGuests] else []
  }

  function PaymentCheck(slots: BookingInfo): seq<Violation> {
    if slots.paymentMethod.Some? && Lower(slots.paymentMethod.value) !in PaymentMethods
    then [UnknownPaymentMethod] else []
  }

  /** The checks after the date-order check has produced `order`, concatenated
      in the order they run. */
  function Checks(slots: BookingInfo, now: Instant, order: seq<Violation>): seq<Violation> {
    NameCheck(slots)
    + DateCheck(slots.checkInDate, CheckInMalformed, CheckInPast, now)
    + DateCheck(slots.checkOutDate, CheckOutMalformed, CheckOutPast, now)
    + order
    + GuestCheck(slots)
    + PaymentCheck(slots)
  }

  predicate RanksBetween(vs: seq<Violation>, lo: int, hi: int) {
    forall v :: v in vs ==> lo <= v.Rank() < hi
  }

  predicate RanksIncrease(vs: seq<Violation>) {
    forall i, j :: 0 <= i < j < |vs| ==> vs[i].Rank() < vs[j].Rank()
  }

  lemma IncreasingConcat(a: seq<Violation>, b: seq<Violation>, lo: int, mid: int, hi: int)
    requires lo <= mid <= hi
    requires RanksIncrease(a) && RanksBetween(a, lo, mid)
    requires RanksIncrease(b) && RanksBetween(b, mid, hi)
    ensures RanksIncrease(a + b) && RanksBetween(a + b, lo, hi)
  {
    forall i, j | 0 <= i < j < |a + b|
      ensures (a + b)[i].Rank() < (a + b)[j].Rank()
    {
      if j < |a| {
        assert (a + b)[i] == a[i] && (a + b)[j] == a[j];
      } else if i >= |a| {
        assert (a + b)[i] == b[i - |a|] && (a + b)[j] == b[j - |a|];
      } else {
        assert (a + b)[i] in a && (a + b)[j] in b;
      }
    }
    forall v | v in a + b
      ensures lo <= v.Rank() < hi
    {
      assert v in a || v in b;
    }
  }

  /** A check reports at most one rule, from the range it owns. */
  predicate IsPiece(vs: seq<Violation>, lo: int, hi: int) {
    |vs| <= 1 && RanksBetween(vs, lo, hi) && RanksIncrease(vs)
  }

  lemma DateCheckIsPiece(date: Option<string>, malformed: Violation, past: Violation, now: Instant, lo: int, hi: int)
    requires lo <= malformed.Rank() < hi && lo <= past.Rank() < hi
    ensures IsPiece(DateCheck(date, malformed, past, now), lo, hi)
  {
    var d := DateCheck(date, malformed, past, now);
    assert d == [] || d == [malformed] || d == [past];
  }

  lemma ChecksInOrder(slots: BookingInfo, now: Instant)
    requires OrderCheck(slots).Success?
    ensures RanksIncrease(Checks(slots, now, OrderCheck(slots).value))
  {
    var a := NameCheck(slots);
    var b := DateCheck(slots.checkInDate, CheckInMalformed, CheckInPast, now);
    var c := DateCheck(slots.checkOutDate, CheckOutMalformed, CheckOutPast, now);
    var d := OrderCheck(slots).value;
    var e := GuestCheck(slots);
    var g := PaymentCheck(slots);
    assert IsPiece(a, 0, 1) by { assert a == [] || a == [ShortName]; }
    DateCheckIsPiece(slots.checkInDate, CheckInMalformed, CheckInPast, now, 1, 3);
    DateCheckIsPiece(slots.checkOutDate, CheckOutMalformed, CheckOutPast, now, 3, 5);
    assert IsPiece(d, 5, 6) by { assert d == [] || d == [DatesOutOfOrder]; }
    assert IsPiece(e, 6, 7) by { assert e == [] || e == [NonPositiveGuests]; }
    assert IsPiece(g, 7, 8) by { assert g == [] || g == [UnknownPaymentMethod]; }
    IncreasingConcat(a, b, 0, 1, 3);
    IncreasingConcat(a + b, c, 0, 3, 5);
    IncreasingConcat(a + b + c, d, 0, 5, 6);
    IncreasingConcat(a + b + c + d, e, 0, 6, 7);
    IncreasingConcat(a + b + c + d + e, g, 0, 7, 8);
  }

  lemma OrderCheckMeetsRule(slots: BookingInfo, now: Instant)
    requires OrderCheck(slots).Success?
    ensures forall v :: v in OrderCheck(slots).value <==> v == DatesOutOfOrder && Violated(v, slots, now)
  {
    if slots.checkInDate.Some? && slots.checkOutDate.Some? {
      PrecedesIsStrictTotalOrder(Strptime(slots.checkInDate.value).value,
                                 Strptime(slots.checkOutDate.value).value,
                                 Strptime(slots.checkInDate.value).value);
    }
  }

  lemma ChecksMeetRules(slots: BookingInfo, now: Instant)
    requires OrderCheck(slots).Success?
    ensures forall v: Violation :: v in Checks(slots, now, OrderCheck(slots).value) <==> Violated(v, slots, now)
  {
    var a := NameCheck(slots);
    var b := DateCheck(slots.checkInDate, CheckInMalformed, CheckInPast, now);
    var c := DateCheck(slots.checkOutDate, CheckOutMalformed, CheckOutPast, now);
    var d := OrderCheck(slots).value;
    var e := GuestCheck(slots);
    var g := PaymentCheck(slots);
    OrderCheckMeetsRule(slots, now);
    forall v: Violation
      ensures v in a + b + c + d + e + g <==> Violated(v, slots, now)
    {
      assert v in a + b + c + d + e + g <==> v in a || v in b || v in c || v in d || v in e || v in g;
    }
  }

  /** All checks of one validation pass, in order. The pass raises exactly
      when the date-order check does. */
  function Validate(slots: BookingInfo, now: Instant): (r: Result<seq<Violation>, TurnError>)
    ensures r.Failure? <==> Aborts(slots)
    ensures r.Failure? ==> r.error == UnparsableDate
  {
    var order :- OrderCheck(slots);
    Success(Checks(slots, now, order))
  }

  /** A pass that does not raise reports every failed rule and only those,
      each once, in the fixed order of the checks. */
  lemma ValidateReportsRules(slots: BookingInfo, now: Instant)
    requires Validate(slots, now).Success?
    ensures forall v: Violation :: v in Validate(slots, now).value <==> Violated(v, slots, now)
    ensures RanksIncrease(Validate(slots, now).value)
  {
    ChecksMeetRules(slots, now);
    ChecksInOrder(slots, now);
  }

  // ----------------------------------------- what a pass writes to the state

  /** The names a list of failed rules appends, rule by rule. */
  function Flagged(vs: seq<Violation>): seq<Slot> {
    if vs == [] then [] else vs[0].Culprits() + Flagged(vs[1..])
  }

  /** The error strings of a list of failed rules, rule by rule. */
  function Messages(vs: seq<Violation>): seq<string> {
    seq(|vs|, i requires 0 <= i < |vs| => vs[i].Message())
  }

  /** Every rule, in the order the checks run. */
  const AllRules: seq<Violation> := [ShortName, CheckInMalformed, CheckInPast, CheckOutMalformed,
                                      CheckOutPast, DatesOutOfOrder, NonPositiveGuests, UnknownPaymentMethod]

  lemma AllRulesListed(v: Violation)
    ensures v in AllRules
  {
    assert AllRules[v.Rank()] == v;
  }

  /** The failed rules that blame slot `s`. */
  function Blamers(slots: BookingInfo, now: Instant, s: Slot): set<Violation> {
    set v | v in AllRules && Violated(v, slots, now) && s in v.Culprits()
  }

  /** A rule names a slot at most once. */
  lemma CulpritsOnce(v: Violation, s: Slot)
    ensures multiset(v.Culprits())[s] == if s in v.Culprits() then 1 else 0
  {
    if v == DatesOutOfOrder {
      assert v.Culprits() == [CheckInDate] + [CheckOutDate];
    }
  }

  lemma RanksIncreaseHasNoDuplicates(vs: seq<Violation>)
    requires RanksIncrease(vs)
    ensures NoDuplicates(vs)
  {
  }

  /** The rules of `vs` that blame `s`. */
  function Blaming(vs: seq<Violation>, s: Slot): set<Violation> {
    set v | v in vs && s in v.Culprits()
  }

  lemma BlamingStep(vs: seq<Violation>, s: Slot)
    requires |vs| > 0 && vs[0] !in vs[1..]
    ensures |Blaming(vs, s)| == |Blaming(vs[1..], s)| + if s in vs[0].Culprits() then 1 else 0
  {
    var rest := Blaming(vs[1..], s);
    var head: set<Violation> := if s in vs[0].Culprits() then {vs[0]} else {};
    forall v
      ensures v in Blaming(vs, s) <==> v in rest + head
    {
      assert v in vs <==> v == vs[0] || v in vs[1..];
    }
    assert Blaming(vs, s) == rest + head;
    assert rest !! head;
  }

  /** Appending the names of distinct rules lists each slot once per rule blaming it. */
  lemma {:induction false} FlaggedCountsRules(vs: seq<Violation>, s: Slot)
    requires NoDuplicates(vs)
    ensures multiset(Flagged(vs))[s] == |Blaming(vs, s)|
    decreases |vs|
  {
    if vs == [] {
      assert Blaming(vs, s) == {};
    } else {
      TailHasNoDuplicates(vs);
      FlaggedCountsRules(vs[1..], s);
      CulpritsOnce(vs[0], s);
      BlamingStep(vs, s);
      assert multiset(Flagged(vs))[s] == multiset(vs[0].Culprits())[s] + multiset(Flagged(vs[1..]))[s];
    }
  }

  /** How often a pass re-lists a slot name: once per failed rule that blames
      it. A malformed check-in date that is also not before the check-out date
      is listed twice; `breakfast_included` never is. */
  lemma FlaggedCount(slots: BookingInfo, now: Instant, s: Slot)
    requires Validate(slots, now).Success?
    ensures multiset(Flagged(Validate(slots, now).value))[s] == |Blamers(slots, now, s)|
  {
    var vs := Validate(slots, now).value;
    ValidateReportsRules(slots, now);
    RanksIncreaseHasNoDuplicates(vs);
    FlaggedCountsRules(vs, s);
    forall v | Violated(v, slots, now) && s in v.Culprits()
      ensures v in AllRules
    {
      AllRulesListed(v);
    }
    assert Blaming(vs, s) == Blamers(slots, now, s);
  }

  /** A name is appended exactly when some failed rule blames it. */
  lemma {:induction false} FlaggedMembership(vs: seq<Violation>, s: Slot)
    ensures s in Flagged(vs) <==> exists v :: v in vs && s in v.Culprits()
    decreases |vs|
  {
    if vs != [] {
      FlaggedMembership(vs[1..], s);
      assert forall v :: v in vs <==> v == vs[0] || v in vs[1..];
    }
  }
}

=== FILE: workflow.dfy ===
/** The booking graph that `_setup_graph` wires up, and one conversation
    turn through it as `run_graph` starts it: from `detect_intent`, along
    the fixed and the conditional edges, to END.
 */
module Workflow {
  import opened Wrappers
  import opened Dates
  import opened Booking
  import opened Validator
  import Nodes

  datatype Node =
    | DetectIntent
    | CollectInformation
    | ValidateInformation
    | ChangeInformation
    | GenerateResponse
    | SummarizeBooking
    | AskForCorrection
  {
    /** The nodes with an edge to END. */
    predicate IsTerminal() {
      GenerateResponse? || SummarizeBooking? || AskForCorrection?
    }

    /** The number of edges on the longest path from this node to END. */
    function Height(): nat {
      match this
      case DetectIntent => 3
      case CollectInformation => 2
      case ValidateInformation => 1
      case ChangeInformation => 1
      case _ => 0
    }
  }

  /** Every edge the graph declares, the conditional ones included; END is not a node. */
  predicate Edge(a: Node, b: Node) {
    match a
    case DetectIntent =>
      b == CollectInformation || b == SummarizeBooking || b == ChangeInformation || b == GenerateResponse
    case CollectInformation => b == ValidateInformation
    case ValidateInformation => b == AskForCorrection || b == GenerateResponse
    case ChangeInformation => b == SummarizeBooking
    case _ => false
  }

  /** The router after `detect_intent`: one branch per label, and an absent
      intent taken as "other". */
  function RouteIntent(intent: Option<Intent>): (r: Node)
    ensures r == CollectInformation <==> intent == Some(MakeReservation)
    ensures r == SummarizeBooking <==> intent == Some(CheckReservation)
    ensures r == ChangeInformation <==> intent == Some(ChangeReservation)
    ensures r == GenerateResponse <==> intent.None? || intent == Some(Other)
    ensures Edge(DetectIntent, r)
  {
    match intent.GetOr(Other)
    case MakeReservation => CollectInformation
    case CheckReservation => SummarizeBooking
    case ChangeReservation => ChangeInformation
    case Other => GenerateResponse
  }

  /** The router after `validate_information`: only a recorded `true` verdict
      leads to a response, anything else to a correction request. */
  function RouteValidation(validInfo: Option<bool>): (r: Node)
    ensures r == GenerateResponse <==> validInfo == Some(true)
    ensures r == AskForCorrection <==> validInfo != Some(true)
    ensures Edge(ValidateInformation, r)
  {
    if !validInfo.GetOr(false) then AskForCorrection else GenerateResponse
  }

  /** The node after `n`, given the state `n` returned; `None` is END. Every
      step follows a declared edge and gets closer to END. */
  function Next(n: Node, st: BookingState): (m: Option<Node>)
    ensures m.None? <==> n.IsTerminal()
    ensures m.Some? ==> Edge(n, m.value) && m.value.Height() < n.Height()
  {
    match n
    case DetectIntent => Some(RouteIntent(st.intent))
    case CollectInformation => Some(ValidateInformation)
    case ValidateInformation => Some(RouteValidation(st.validInfo))
    case ChangeInformation => Some(SummarizeBooking)
    case _ => None
  }

  /** A state with no key set. */
  const Blank: BookingState := BookingState(None, None, NoSlots, None, None, None, None)

  /** Conversely, every declared edge is taken from some state. */
  lemma EveryEdgeIsRouted(a: Node, b: Node)
    requires Edge(a, b)
    ensures exists st :: Next(a, st) == Some(b)
  {
    match a
    case DetectIntent =>
      var intent := match b
        case CollectInformation => MakeReservation
        case SummarizeBooking => CheckReservation
        case ChangeInformation => ChangeReservation
        case _ => Other;
      assert Next(a, Blank.(intent := Some(intent))) == Some(b);
    case ValidateInformation =>
      assert Next(a, Blank.(validInfo := Some(b == GenerateResponse))) == Some(b);
    case CollectInformation =>
      assert Next(a, Blank) == Some(b);
    case ChangeInformation =>
      assert Next(a, Blank) == Some(b);
  }

  /** Runs node `n` on `st`. */
  function Step(n: Node, st: BookingState, chains: Nodes.Chains, now: Instant): Result<BookingState, TurnError> {
    match n
    case DetectIntent => Nodes.DetectIntent(st, chains)
    case CollectInformation => Nodes.CollectInformation(st, chains)
    case ValidateInformation => Nodes.ValidateInformation(st, now)
    case ChangeInformation => Nodes.ChangeInformation(st, chains)
    case GenerateResponse => Nodes.GenerateResponse(st, chains)
    case SummarizeBooking => Nodes.SummarizeBooking(st, chains)
    case AskForCorrection => Nodes.AskForCorrection(st, chains)
  }

  /** The nodes a turn visited, in order, and the state it ended with. */
  datatype Turn = Turn(path: seq<Node>, final: BookingState)

  /** Consecutive nodes of `p` are joined by declared edges. */
  predicate FollowsEdges(p: seq<Node>) {
    forall i :: 0 <= i < |p| - 1 ==> Edge(p[i], p[i + 1])
  }

  /** Runs the graph from `n` until a node routes to END, or a node raises.
      The path starts at `n`, follows declared edges, ends at the first
      terminal node it meets, and is at most `n.Height() + 1` nodes long. */
  function Run(n: Node, st: BookingState, chains: Nodes.Chains, now: Instant): (r: Result<Turn, TurnError>)
    ensures r.Success? ==>
      && 0 < |r.value.path| <= n.Height() + 1
      && r.value.path[0] == n
      && FollowsEdges(r.value.path)
      && r.value.path[|r.value.path| - 1].IsTerminal()
      && forall i :: 0 <= i < |r.value.path| - 1 ==> !r.value.path[i].IsTerminal()
    decreases n.Height()
  {
    var after :- Step(n, st, chains, now);
    match Next(n, after)
    case None => Success(Turn([n], after))
    case Some(m) =>
      var rest :- Run(m, after, chains, now);
      assert forall i :: 0 < i < |[n] + rest.path| ==> ([n] + rest.path)[i] == rest.path[i - 1];
      Success(Turn([n] + rest.path, rest.final))
  }

  /** The state a turn starts from: the payload, with the key list set to all
      six names when it lacks one. */
  function Prepare(payload: BookingState): (st: BookingState)
    ensures st.notFilledKeys.Some?
    ensures payload.notFilledKeys.Some? ==> st == payload
    ensures payload.notFilledKeys.None? ==> st == payload.(notFilledKeys := Some(NecessaryInformation))
  {
    if payload.notFilledKeys.None? then payload.(notFilledKeys := Some(NecessaryInformation)) else payload
  }

  /** What the nodes read with `state[...]` is there: the user message and
      the key list always, the intent once `detect_intent` has run. */
  predicate Ready(n: Node, st: BookingState) {
    st.userMessage.Some? && st.notFilledKeys.Some? && (n != DetectIntent ==> st.intent.Some?)
  }

  /** On a ready state a node raises only on an unparsable date. */
  lemma ReadyStepFailsOnlyOnDates(n: Node, st: BookingState, chains: Nodes.Chains, now: Instant)
    requires Ready(n, st)
    ensures Step(n, st, chains, now).Failure? ==> Step(n, st, chains, now).error == UnparsableDate
  {
  }

  /** A node that succeeds on a ready state leaves the state ready for its successor. */
  lemma StepKeepsReady(n: Node, st: BookingState, chains: Nodes.Chains, now: Instant)
    requires Ready(n, st) && Step(n, st, chains, now).Success? && !n.IsTerminal()
    ensures Ready(Next(n, Step(n, st, chains, now).value).value, Step(n, st, chains, now).value)
  {
  }

  /** From a ready state a walk raises only on an unparsable date. */
  lemma {:induction false} ReadyRunFailsOnlyOnDates(n: Node, st: BookingState, chains: Nodes.Chains, now: Instant)
    requires Ready(n, st)
    ensures Run(n, st, chains, now).Failure? ==> Run(n, st, chains, now).error == UnparsableDate
    decreases n.Height()
  {
    ReadyStepFailsOnlyOnDates(n, st, chains, now);
    var step := Step(n, st, chains, now);
    if step.Success? && !n.IsTerminal() {
      StepKeepsReady(n, st, chains, now);
      ReadyRunFailsOnlyOnDates(Next(n, step.value).value, step.value, chains, now);
    }
  }

  /** A turn fails only for want of a user message or on a date the
      date-order check cannot parse. */
  lemma TurnFailures(payload: BookingState, chains: Nodes.Chains, now: Instant)
    ensures var r := Run(DetectIntent, Prepare(payload), chains, now);
      r.Failure? ==> r.error == MissingUserMessage || r.error == UnparsableDate
  {
    if payload.userMessage.Some? {
      ReadyRunFailsOnlyOnDates(DetectIntent, Prepare(payload), chains, now);
    }
  }

  /** `run_graph`: one turn from `detect_intent`. The default list and the
      intent set by `detect_intent` keep every other read safe, so the turn
      can only fail for want of a user message or on a date the date-order
      check cannot parse. */
  function RunGraph(payload: BookingState, chains: Nodes.Chains, now: Instant): (r: Result<Turn, TurnError>)
    ensures payload.userMessage.None? ==> r == Failure(MissingUserMessage)
    ensures r.Failure? ==> r.error == MissingUserMessage || r.error == UnparsableDate
    ensures r.Success? ==>
      && 2 <= |r.value.path| <= 4
      && r.value.path[0] == DetectIntent
      && r.value.path[|r.value.path| - 1].IsTerminal()
  {
    TurnFailures(payload, chains, now);
    var r := Run(DetectIntent, Prepare(payload), chains, now);
    r
  }

  /** The intent `detect_intent` assigns on this turn. */
  function ClassifiedIntent(payload: BookingState, chains: Nodes.Chains): Intent
    requires payload.userMessage.Some?
  {
    chains.classifyIntent(payload.response, payload.userMessage.value)
  }

  /** The state `detect_intent` hands on. */
  function Detected(payload: BookingState, chains: Nodes.Chains, now: Instant): (st: BookingState)
    requires payload.userMessage.Some?
    ensures Ready(CollectInformation, st)
    ensures st == Prepare(payload).(intent := Some(ClassifiedIntent(payload, chains)))
    ensures Step(DetectIntent, Prepare(payload), chains, now) == Success(st)
  {
    Nodes.DetectIntent(Prepare(payload), chains).value
  }

  /** One step of a walk: run `n`, then walk on from `m`, the node it routes to. */
  lemma RunUnfolds(n: Node, m: Node, st: BookingState, chains: Nodes.Chains, now: Instant)
    requires Step(n, st, chains, now).Success? && Next(n, Step(n, st, chains, now).value) == Some(m)
    ensures var tail := Run(m, Step(n, st, chains, now).value, chains, now);
      && (tail.Failure? ==> Run(n, st, chains, now) == Failure(tail.error))
      && (tail.Success? ==> Run(n, st, chains, now) == Success(Turn([n] + tail.value.path, tail.value.final)))
  {
  }

  /** A walk from a response node is that node alone. */
  lemma RunEnds(n: Node, st: BookingState, chains: Nodes.Chains, now: Instant)
    requires n.IsTerminal() && Step(n, st, chains, now).Success?
    ensures Run(n, st, chains, now) == Success(Turn([n], Step(n, st, chains, now).value))
  {
  }

  /** A turn is `detect_intent` followed by the walk from the node its intent routes to. */
  lemma RunGraphUnfolds(payload: BookingState, chains: Nodes.Chains, now: Instant)
    requires payload.userMessage.Some?
    ensures var tail := Run(RouteIntent(Some(ClassifiedIntent(payload, chains))), Detected(payload, chains, now), chains, now);
      && (tail.Failure? ==> RunGraph(payload, chains, now) == Failure(tail.error))
      && (tail.Success? ==> RunGraph(payload, chains, now) == Success(Turn([DetectIntent] + tail.value.path, tail.value.final)))
  {
    RunUnfolds(DetectIntent, RouteIntent(Some(ClassifiedIntent(payload, chains))), Prepare(payload), chains, now);
  }

  /** An "other" message goes straight to a response: no slot and no key is touched. */
  lemma OtherIntentBypassesCollection(payload: BookingState, chains: Nodes.Chains, now: Instant)
    requires payload.userMessage.Some? && ClassifiedIntent(payload, chains) == Other
    ensures var r := RunGraph(payload, chains, now);
      && r.Success?
      && r.value.path == [DetectIntent, GenerateResponse]
      && r.value.final.slots == payload.slots
      && r.value.final.notFilledKeys == Prepare(payload).notFilledKeys
  {
    var detected := Detected(payload, chains, now);
    RunGraphUnfolds(payload, chains, now);
    RunEnds(GenerateResponse, detected, chains, now);
    assert [DetectIntent] + [GenerateResponse] == [DetectIntent, GenerateResponse];
  }

  /** A "check reservation" message is answered with a summary of the slots as they stand. */
  lemma CheckIntentOnlySummarizes(payload: BookingState, chains: Nodes.Chains, now: Instant)
    requires payload.userMessage.Some? && ClassifiedIntent(payload, chains) == CheckReservation
    ensures var r := RunGraph(payload, chains, now);
      && r.Success?
      && r.value.path == [DetectIntent, SummarizeBooking]
      && r.value.final.slots == payload.slots
      && r.value.final.response == Some(chains.summarize(CheckReservation, payload.slots))
  {
    var detected := Detected(payload, chains, now);
    RunGraphUnfolds(payload, chains, now);
    RunEnds(SummarizeBooking, detected, chains, now);
    assert [DetectIntent] + [SummarizeBooking] == [DetectIntent, SummarizeBooking];
  }

  /** The walk from `change_information`, which always hands on to the summary. */
  lemma WalkFromChange(detected: BookingState, chains: Nodes.Chains, now: Instant)
    requires Ready(ChangeInformation, detected)
    ensures var changed := Nodes.ChangeInformation(detected, chains).value;
      Run(ChangeInformation, detected, chains, now)
      == Success(Turn([ChangeInformation, SummarizeBooking], Nodes.SummarizeBooking(changed, chains).value))
  {
    var changed := Nodes.ChangeInformation(detected, chains).value;
    RunUnfolds(ChangeInformation, SummarizeBooking, detected, chains, now);
    RunEnds(SummarizeBooking, changed, chains, now);
    assert [ChangeInformation] + [SummarizeBooking] == [ChangeInformation, SummarizeBooking];
  }

  /** A "change reservation" message applies the changes and then summarises;
      the intent left for the next turn is "make a reservation" exactly when
      the changes did not supply every name still missing. */
  lemma ChangeIntentThenSummarizes(payload: BookingState, chains: Nodes.Chains, now: Instant)
    requires payload.userMessage.Some? && ClassifiedIntent(payload, chains) == ChangeReservation
    ensures var r := RunGraph(payload, chains, now);
      var x := chains.extractChanges(payload.userMessage.value, payload.slots);
      && r.Success?
      && r.value.path == [DetectIntent, ChangeInformation, SummarizeBooking]
      && Nodes.Changed(Detected(payload, chains, now), x, r.value.final.(response := Detected(payload, chains, now).response))
      && (r.value.final.intent == Some(MakeReservation) <==> !Nodes.Completes(Prepare(payload).notFilledKeys.value, x))
  {
    var detected := Detected(payload, chains, now);
    var changed := Nodes.ChangeInformation(detected, chains).value;
    var answered := Nodes.SummarizeBooking(changed, chains).value;
    ChangeTurn(payload, chains, now);
    Nodes.Changes(detected, chains);
    assert answered.(response := detected.response) == changed;
  }

  /** The path of a "change reservation" turn and the state it ends with. */
  lemma ChangeTurn(payload: BookingState, chains: Nodes.Chains, now: Instant)
    requires payload.userMessage.Some? && ClassifiedIntent(payload, chains) == ChangeReservation
    ensures var changed := Nodes.ChangeInformation(Detected(payload, chains, now), chains).value;
      RunGraph(payload, chains, now)
      == Success(Turn([DetectIntent, ChangeInformation, SummarizeBooking], Nodes.SummarizeBooking(changed, chains).value))
  {
    var detected := Detected(payload, chains, now);
    RunGraphUnfolds(payload, chains, now);
    WalkFromChange(detected, chains, now);
    assert [DetectIntent] + [ChangeInformation, SummarizeBooking] == [DetectIntent, ChangeInformation, SummarizeBooking];
  }

  /** The walk from `validate_information` when the pass raises. */
  lemma ValidationRaises(collected: BookingState, chains: Nodes.Chains, now: Instant)
    requires Nodes.ValidateInformation(collected, now).Failure?
    ensures Run(ValidateInformation, collected, chains, now) == Failure(UnparsableDate)
  {
  }

  /** The walk from `validate_information` when the verdict is `true`. */
  lemma ValidationPasses(collected: BookingState, chains: Nodes.Chains, now: Instant)
    requires collected.intent.Some?
    requires Nodes.ValidateInformation(collected, now).Success?
    requires Nodes.ValidateInformation(collected, now).value.validInfo == Some(true)
    ensures var validated := Nodes.ValidateInformation(collected, now).value;
      Run(ValidateInformation, collected, chains, now)
      == Success(Turn([ValidateInformation, GenerateResponse], Nodes.GenerateResponse(validated, chains).value))
  {
    var validated := Nodes.ValidateInformation(collected, now).value;
    RunUnfolds(ValidateInformation, GenerateResponse, collected, chains, now);
    RunEnds(GenerateResponse, validated, chains, now);
    assert [ValidateInformation] + [GenerateResponse] == [ValidateInformation, GenerateResponse];
  }

  /** The walk from `validate_information` when the verdict is not `true`. */
  lemma ValidationRejects(collected: BookingState, chains: Nodes.Chains, now: Instant)
    requires Nodes.ValidateInformation(collected, now).Success?
    requires Nodes.ValidateInformation(collected, now).value.validInfo != Some(true)
    ensures var validated := Nodes.ValidateInformation(collected, now).value;
      Run(ValidateInformation, collected, chains, now)
      == Success(Turn([ValidateInformation, AskForCorrection], Nodes.AskForCorrection(validated, chains).value))
  {
    var validated := Nodes.ValidateInformation(collected, now).value;
    RunUnfolds(ValidateInformation, AskForCorrection, collected, chains, now);
    RunEnds(AskForCorrection, validated, chains, now);
    assert [ValidateInformation] + [AskForCorrection] == [ValidateInformation, AskForCorrection];
  }

  /** The walk from `validate_information`: the verdict picks the last node. */
  lemma WalkFromValidation(collected: BookingState, chains: Nodes.Chains, now: Instant)
    requires collected.intent.Some?
    ensures var validated := Nodes.ValidateInformation(collected, now);
      var r := Run(ValidateInformation, collected, chains, now);
      && (validated.Failure? ==> r == Failure(UnparsableDate))
      && (validated.Success? ==>
          && r.Success?
          && r.value.path == [ValidateInformation, RouteValidation(validated.value.validInfo)]
          && r.value.final.slots == collected.slots)
  {
    var validated := Nodes.ValidateInformation(collected, now);
    if validated.Failure? {
      ValidationRaises(collected, chains, now);
    } else if validated.value.validInfo == Some(true) {
      ValidationPasses(collected, chains, now);
    } else {
      ValidationRejects(collected, chains, now);
    }
  }

  /** The walk from `collect_information`, which always hands on to validation. */
  lemma WalkFromCollection(detected: BookingState, chains: Nodes.Chains, now: Instant)
    requires Ready(CollectInformation, detected)
    ensures var collected := Nodes.CollectInformation(detected, chains).value;
      var validated := Nodes.ValidateInformation(collected, now);
      var r := Run(CollectInformation, detected, chains, now);
      && (validated.Failure? ==> r == Failure(UnparsableDate))
      && (validated.Success? ==>
          && r.Success?
          && r.value.path == [CollectInformation, ValidateInformation, RouteValidation(validated.value.validInfo)]
          && r.value.final.slots == collected.slots)
  {
    var collected := Nodes.CollectInformation(detected, chains).value;
    assert collected.intent == detected.intent;
    RunUnfolds(CollectInformation, ValidateInformation, detected, chains, now);
    WalkFromValidation(collected, chains, now);
    var validated := Nodes.ValidateInformation(collected, now);
    if validated.Success? {
      var last := RouteValidation(validated.value.validInfo);
      assert [CollectInformation] + [ValidateInformation, last] == [CollectInformation, ValidateInformation, last];
    }
  }

  /** After a validation pass the route is a response exactly when no rule failed. */
  lemma VerdictRoutes(collected: BookingState, now: Instant)
    requires Nodes.ValidateInformation(collected, now).Success?
    ensures var last := RouteValidation(Nodes.ValidateInformation(collected, now).value.validInfo);
      && (last == GenerateResponse <==> forall v: Violation :: !Violated(v, collected.slots, now))
      && (last == AskForCorrection <==> exists v: Violation :: Violated(v, collected.slots, now))
  {
    Nodes.Validates(collected, now);
  }

  /** A "make a reservation" message is collected and validated; the turn ends
      with a response exactly when the collected slots break no rule, and with
      a request for correction otherwise. */
  lemma ReservationIsValidatedBeforeResponse(payload: BookingState, chains: Nodes.Chains, now: Instant)
    requires payload.userMessage.Some? && ClassifiedIntent(payload, chains) == MakeReservation
    ensures var collected := Nodes.CollectInformation(Detected(payload, chains, now), chains).value;
      var r := RunGraph(payload, chains, now);
      && (r.Failure? <==> Aborts(collected.slots))
      && (r.Success? ==>
          && r.value.final.slots == collected.slots
          && (r.value.path == [DetectIntent, CollectInformation, ValidateInformation, GenerateResponse]
              <==> forall v: Violation :: !Violated(v, collected.slots, now))
          && (r.value.path == [DetectIntent, CollectInformation, ValidateInformation, AskForCorrection]
              <==> exists v: Violation :: Violated(v, collected.slots, now)))
  {
    var detected := Detected(payload, chains, now);
    RunGraphUnfolds(payload, chains, now);
    WalkFromCollection(detected, chains, now);
    var collected := Nodes.CollectInformation(detected, chains).value;
    var validated := Nodes.ValidateInformation(collected, now);
    if validated.Success? {
      var last := RouteValidation(validated.value.validInfo);
      VerdictRoutes(collected, now);
      var path := [DetectIntent, CollectInformation, ValidateInformation, last];
      assert [DetectIntent] + [CollectInformation, ValidateInformation, last] == path;
      assert path[3] == last;
    }
  }
}

=== FILE: wrappers.dfy ===
/** Optional values and fallible results, as the booking workflow uses them.

    `Option` stands for a key of the Python state dictionary that may be absent;
    `Result` stands for a node that either returns the updated state or raises.
 */
module Wrappers {

  datatype Option<+T> = None | Some(value: T) {

    /** The value if present, otherwise `default` (Python's `dict.get(key, default)`). */
    function GetOr(default: T): T {
      match this
      case Some(v) => v
      case None => default
    }
  }

  datatype Result<+R, +E> = Success(value: R) | Failure(error: E) {

    predicate IsFailure() {
      Failure?
    }

    function PropagateFailure<U>(): Result<U, E>
      requires Failure?
    {
      Failure(error)
    }

    function Extract(): R
      requires Success?
    {
      value
    }
  }
}
